=== FILE: README.md ===
# llmbox core, modelled in Dafny

llmbox is a command-line launcher for sandboxed LLM containers. A user keeps
named **profiles**. Each profile is a list of **volume mounts** (`host[:container]`).
`llmbox run` starts an ephemeral container with a fixed capability and proxy
policy, the profile's mounts and a read-only proxy blocklist. `llmbox proxy
reload` signals the proxy in every running container of a profile.

The project models four parts of the program:

- **Mounts** (`volumes.dfy`):
  - parsing `host[:container]` at the first colon;
  - the host normalisation, through `~`-expansion and an abstract `resolve`;
  - the purely lexical container normalisation under `/home/llm/workspace`;
  - the storage round trip of `spec()`.
- **Profiles** (`profiles.dfy`):
  - the name rule;
  - the decoding of a stored profile document;
  - the profile store as a map from name to document, with create, ensure, delete, rename, copy and list and their error rules;
  - the choice of the profile `run` uses when none is named.
- **Commands** (`cli.dfy`):
  - `volume delete` targets: numbers, hosts and `host:container`;
  - the `volume list` numbering;
  - numbered tokens of `profile delete`;
  - the default marker of `profile list`;
  - the append/abort rule of `volume add`;
  - the outcome of `proxy reload`;
  - the order of effects in `run`: `-` handling, dry run, launch, and saving the state last.
- **Container runtime** (`docker.dfy`):
  - `BASE_RUN_ARGS` and its capability policy;
  - the exact layout of the launch command;
  - `run_container`;
  - `list_profile_containers`;
  - `reload_proxy`.

Supporting modules:

- `errors.dfy` holds the shared `Option`/`Result` and one `Error` constructor per exception the code raises. It also holds `MapResult`, a list comprehension whose element function may raise.
- `text.dfy` holds the Python string operations the code relies on: `split`, `join`, `partition`, `splitlines`, `strip`, `isdigit`, `int`, and the order `sorted` uses.
- `paths.dfy` holds pure POSIX paths as pathlib parses and prints them, and `os.path.normpath`.

External effects are parameters:

- The filesystem is a value `Fs` with three functions: home expansion, `Path.resolve(strict=False)` and `Path.exists()`.
- The profiles directory is a `Store`, a map from profile name to the YAML document in its file.
- The process runner is a function from an argument vector to `(exit code, stdout, stderr)`.
- The clock reading of `_timestamp` is a string argument.
- The saved state is a `State` value passed in and returned.

Every command returns the store it leaves behind, the lines it echoes, the argument vectors it handed to the runner, and `Ok` or the error it ends with.

Where the repository's own tests expect behaviour the code does not have, the model follows the code:

- The remembered profile is `State.last_profile` (src/llmbox/cli.py:146, 289), not the `default_profile` key that tests/test_run_cli.py:49 and tests/test_profile_cli.py:25 read.
- `run` with profiles `{alpha, beta}` and no usable state creates and uses `default` (src/llmbox/profiles.py:159-164); tests/test_run_cli.py:85-86 expects it to switch to `alpha`.
- `run alpha` records `alpha` as the last profile (src/llmbox/cli.py:289); tests/test_run_cli.py:118 expects the remembered profile to stay `beta`.
- `profile create`, `profile delete` and `profile rename` never touch the state; tests/test_profile_cli.py:54, 69-71 and 85 expect them to.
- There is no command-abbreviation group, and there are no `version` or `set-default` commands, though tests/test_abbreviating_group.py:6, tests/test_version_cli.py:22 and tests/test_profile_cli.py:98 use them.

## Model

| member | source | states |
|---|---|---|
| `Errors.MapResult` | src/llmbox/cli.py:180 | a comprehension over a list with a raising element function succeeds iff every element does, then yields each element's value in order; otherwise its error is the first failing element's |
| `Text.Partition` | src/llmbox/volumes.py:40 | `partition(":")` splits at the first colon: the head holds no colon, the three parts rebuild the input, and no colon gives the whole string and an empty tail |
| `Text.DecimalRoundTrip` | src/llmbox/cli.py:41-42 | reading back the printed 1-based number with `int()` gives the number |
| `Text.SortedList` | src/llmbox/profiles.py:65 | `sorted` of a set of names holds each name once, in strictly ascending code-point order |
| `Paths.PurePath` | src/llmbox/volumes.py:24 | `Path(s)` keeps only proper parts, and it is absolute exactly when `s` starts with `/` |
| `Paths.PurePathOfRender` | src/llmbox/volumes.py:19-20 | parsing `str(p)` gives `p` back for every well-formed path |
| `Paths.NormPathIdempotent` | src/llmbox/volumes.py:36 | `normpath` applied twice equals once |
| `Volumes.ExpandUser` | src/llmbox/volumes.py:24 | `expanduser` leaves absolute paths alone; its only failure is an unknown home directory |
| `Volumes.NormalizeHostPath` | src/llmbox/volumes.py:23-27 | the host is always rooted and normal after resolve; an absolute host goes to resolve as written; the only error is a missing home directory |
| `Volumes.HostRelativeJoinsCwd` | src/llmbox/volumes.py:25-27 | a relative host without `~` is joined onto `cwd` before it is resolved |
| `Volumes.ContainerTarget` | src/llmbox/volumes.py:30-35 | the path to normalise is always absolute |
| `Volumes.NormalizeContainerPath` | src/llmbox/volumes.py:30-36 | the container path is absolute and lexically normal: no `.`, no empty part, no `..` |
| `Volumes.ContainerNormalizeThroughText` | src/llmbox/volumes.py:36 | the source's detour `Path(os.path.normpath(str(target)))` yields the same path as normalising the parsed target |
| `Volumes.ContainerDefaultsToHostName` | src/llmbox/volumes.py:31-32 | an empty or absent container part mounts at `/home/llm/workspace/<host name>`, or at the workspace itself for host `/` |
| `Volumes.ContainerRelativeAnchored` | src/llmbox/volumes.py:34-35 | a relative container part is normalised under `/home/llm/workspace`; without `..` it is simply appended |
| `Volumes.ContainerAbsoluteKept` | src/llmbox/volumes.py:34-35 | an absolute container part is only normalised and does not depend on the host |
| `Volumes.ContainerNormalizeIdempotent` | src/llmbox/volumes.py:30-36 | feeding a normalised container path back in returns it unchanged |
| `Volumes.ParseMountSpec` | src/llmbox/volumes.py:39-49 | the result is the empty-host error exactly when the spec is empty or starts with `:`; with missing hosts allowed a missing host never fails; without that, every accepted host exists; every accepted mount is placed |
| `Volumes.ParseSplitsAtFirstColon` | src/llmbox/volumes.py:40-48 | with or without missing hosts allowed, the host part is everything before the first colon and the container part everything after it, colons included; a host whose normalisation fails passes that error on; a host that does not exist is refused by its resolved name only when missing hosts are not allowed |
| `Volumes.ParseWithoutColon` | src/llmbox/volumes.py:30-48 | a spec without a colon is all host: it mounts at the default container path `/home/llm/workspace/<host name>`, with the host's normalisation error passed on and a missing host refused only when missing hosts are not allowed |
| `Volumes.ParseAbsoluteNeverFails` | src/llmbox/volumes.py:39-49 | an absolute host spec with missing hosts allowed always parses |
| `Volumes.SpecRoundTripContainer` | src/llmbox/volumes.py:19-49 | re-parsing a stored `spec()` with cwd `/` and missing hosts allowed returns the same container when the host text has no colon |
| `Volumes.SpecRoundTrip` | src/llmbox/volumes.py:19-49 | ... and returns the whole mount when resolve fixes the host |
| `Profiles.ValidateProfileName` | src/llmbox/profiles.py:44-49 | a name is accepted iff it is non-empty, over `[A-Za-z0-9._-]`, and not all digits; it is returned unchanged; a refusal names the rule that failed |
| `Profiles.ParseEntry` | src/llmbox/profiles.py:30-36 | a non-string entry is refused; a string entry is parsed as a spec with cwd `/` and missing hosts allowed, so a vanished host never fails a load; every mount an entry parses to is placed: a resolved host and an absolute, normal container |
| `Profiles.ParseEntries` | src/llmbox/profiles.py:29-37 | the list parses iff every entry does, to the entries' mounts in order; otherwise the error is that of the first entry that fails |
| `Profiles.ParseVolumes` | src/llmbox/profiles.py:21-37 | null is no mounts, a non-list is refused, a list is parsed entry by entry |
| `Profiles.Decode` | src/llmbox/profiles.py:21-78 | a falsy document is an empty profile; any other non-mapping is refused; a `volumes` value that fails to parse fails the decode with its error; an accepted mapping holds no key but `volumes`; every decoded mount is placed |
| `Profiles.Specs` | src/llmbox/profiles.py:39-41 | serialisation keeps one `spec()` string per mount, in order |
| `Profiles.ParseEntriesAllOk` | src/llmbox/profiles.py:29-37 | entries that each parse make the list parse to exactly those mounts |
| `Profiles.ParseEntriesOfSpecs` | src/llmbox/profiles.py:29-41 | re-parsing the serialised specs of storable mounts gives the mounts back |
| `Profiles.DecodeEncode` | src/llmbox/profiles.py:70-83 | a saved profile loads back unchanged when its mounts survive storage |
| `Profiles.DecodeVolumesOnly` | src/llmbox/profiles.py:75-78 | a mapping with only a parseable `volumes` key decodes to those mounts |
| `Profiles.ListProfiles` | src/llmbox/profiles.py:61-65 | the listing holds every stored name exactly once, sorted |
| `Profiles.Exists` | src/llmbox/profiles.py:67-68 | existence validates the name first, then answers membership |
| `Profiles.Load` | src/llmbox/profiles.py:70-78 | a valid missing name is not found; a valid stored name loads as its document decodes, and nothing else loads |
| `Profiles.Save` | src/llmbox/profiles.py:80-83 | saving a valid name stores the encoded profile under it and keeps every other profile |
| `Profiles.Create` | src/llmbox/profiles.py:85-93 | creation succeeds iff the name is valid and absent, adding an empty profile; an existing name is refused |
| `Profiles.Ensure` | src/llmbox/profiles.py:95-98 | an invalid name is refused with the validation error; a valid existing profile is loaded, with the store unchanged and `False`, and its load error is passed on; a valid absent name is created empty with `True` and never fails |
| `Profiles.Delete` | src/llmbox/profiles.py:100-105 | on success exactly the named profiles are gone, and they were valid, present and distinct; on failure it stopped at the first name that was invalid or no longer present, with every earlier deletion done and nothing after it |
| `Profiles.StopsAtUnique` | src/llmbox/profiles.py:100-105 | a failed delete has only one position it can have stopped at and one store it can leave |
| `Profiles.DeleteSucceeds` | src/llmbox/profiles.py:100-105 | distinct, valid, present names are all deleted without error |
| `Profiles.DeleteOne` | src/llmbox/profiles.py:100-105 | deleting one present profile removes just that profile |
| `Profiles.Rename` | src/llmbox/profiles.py:107-117 | rename succeeds iff old exists and new does not; the new name then holds the old document, the old name is gone, and the rest is unchanged |
| `Profiles.RenameToSelfFails` | src/llmbox/profiles.py:112-114 | renaming a profile onto itself always fails |
| `Profiles.Copy` | src/llmbox/profiles.py:119-128 | copy refuses equal names, a source that does not load (with the load's error) and an existing destination; when none of these holds it succeeds, adding the destination with the source's data and changing nothing else |
| `Profiles.CopyLoadsAsSource` | src/llmbox/profiles.py:119-128 | after a copy, both profiles load as the source did |
| `Profiles.ChooseExistingDefault` | src/llmbox/profiles.py:131-136 | the recorded name when it is non-empty and listed, else the only profile, else nothing; any choice is listed |
| `Profiles.DefaultProfileValid` | src/llmbox/profiles.py:154 | `default` is a valid profile name, so creating it cannot fail on the name |
| `Profiles.ResolveProfileForRun` | src/llmbox/profiles.py:139-164 | a non-empty request succeeds iff it is a valid, existing name, and changes nothing; no request never fails; the returned name always exists afterwards; created is set exactly when it was absent, and then only `default` is added |
| `Profiles.RunUsesExistingDefault` | src/llmbox/profiles.py:148-164 | without a request, `run` uses `choose_existing_default`'s choice unchanged when there is one, and `default` otherwise |
| `Profiles.RunWithNoProfilesCreatesDefault` | src/llmbox/profiles.py:153-155 | with no profiles, `default` is created and used |
| `Profiles.RunUsesRecordedDefault` | src/llmbox/profiles.py:148-151 | a recorded, existing name is used as it is |
| `Profiles.RunWithOneProfileUsesIt` | src/llmbox/profiles.py:148-158 | with exactly one profile and no request, that profile is used, unchanged and uncreated, whatever was recorded |
| `Profiles.RunWithSeveralProfilesUsesDefault` | src/llmbox/profiles.py:160-164 | with two or more profiles and no usable record, `default` is used, and created exactly when it was absent |
| `Docker.BaseRunArgsPolicy` | src/llmbox/docker.py:10-47 | the base arguments are 36 fixed strings; `--cap-drop ALL` comes before every `--cap-add` |
| `Docker.CapAddCount` | src/llmbox/docker.py:17-30 | exactly seven capabilities are added back |
| `Docker.VolumeArgs` | src/llmbox/docker.py:76-77 | one `-v <spec>` pair per mount, in stored order |
| `Docker.BuildRunCommand` | src/llmbox/docker.py:54-82 | the name is `llmbox-<profile>-<timestamp>`; the command has length `36 + 6 + 2·volumes + 2 + extra + 1` and ends with the image |
| `Docker.RunCommandLayout` | src/llmbox/docker.py:66-81 | the command is laid out in this order: base args, `--name` with the returned name, the two labels, the mounts, the read-only blocklist mount, the extra args verbatim, the image |
| `Docker.BuildRunCommandFixedPrefix` | src/llmbox/docker.py:66-67 | the first 36 arguments are the same for every input |
| `Docker.RunContainer` | src/llmbox/docker.py:85-95 | the runner is called once with the built command; success iff exit 0, returning the built name and command |
| `Docker.PsFindsLaunchedLabel` | src/llmbox/docker.py:99-106 | the `docker ps` filter is the profile label a launch of that profile carries |
| `Docker.NonBlank` | src/llmbox/docker.py:110 | kept lines are non-empty and already stripped, and never more than the input lines |
| `Docker.NonBlankKeeps` | src/llmbox/docker.py:110 | every line that is not blank once stripped is listed, stripped |
| `Docker.NonBlankOnlyLines` | src/llmbox/docker.py:110 | nothing is listed but a stripped input line |
| `Docker.NonBlankAppend` | src/llmbox/docker.py:110 | the filter keeps line order: the lines kept from a concatenation are those of each half, one after the other |
| `Docker.OutputLinesOfIds` | src/llmbox/docker.py:110 | container ids printed one per line come back exactly, in order |
| `Docker.OutputLinesOfNothing` | src/llmbox/docker.py:110 | empty output lists no containers |
| `Docker.ListProfileContainers` | src/llmbox/docker.py:98-110 | one `docker ps` call; success iff exit 0, and then the ids are the stripped non-blank lines of its stdout; an error carries the stripped stderr, or a fixed non-empty message when that is empty |
| `Docker.FailuresExact` | src/llmbox/docker.py:119-131 | the failures name exactly the containers whose signal exited non-zero, each with the detail of its own run |
| `Docker.ExecCommands` | src/llmbox/docker.py:119-128 | one exec per container, in order |
| `Docker.SignalAll` | src/llmbox/docker.py:118-131 | the loop signals every container once, in order, never stops early, and collects the failures in order |
| `Docker.ReloadProxy` | src/llmbox/docker.py:113-133 | a listing error is passed on after the single `ps` call; otherwise the result is the containers and their failures, after `ps` and one exec per container (none when there are none) |
| `Cli.TargetIndices` | src/llmbox/cli.py:40-61 | a number k names position k-1 iff 1 ≤ k ≤ count, else it is an out-of-range error; a target without a colon names the mounts with that normalised host, and a normalisation error is passed on; with a colon, the mounts equal in host and container, and a parse error is passed on; a target that parses but names nothing is the not-found error |
| `Cli.UnionAll` | src/llmbox/cli.py:45-61 | the matched set holds every position some target named |
| `Cli.Matches` | src/llmbox/cli.py:38-61 | all targets succeed iff each does, and the match set is the union of theirs; otherwise the error is the first failing target's |
| `Cli.RemainingAtKept` | src/llmbox/cli.py:63 | the survivors are the mounts at the unmatched positions, in increasing position order |
| `Cli.RemainingExtremes` | src/llmbox/cli.py:63 | no match keeps every mount; matching every position keeps none |
| `Cli.RemainingWithout` | src/llmbox/cli.py:63 | removing one position splices the list around it |
| `Cli.GatherMatches` | src/llmbox/cli.py:38-61 | the first loop collects the union of the matches, stopping with the first failing target's error |
| `Cli.KeepUnmatched` | src/llmbox/cli.py:63 | the second loop keeps the unmatched mounts in order |
| `Cli.DeleteTargetsFromVolumes` | src/llmbox/cli.py:34-63 | a failing target means no list; otherwise the list without every matched position |
| `Cli.ListedNumberTarget` | src/llmbox/cli.py:41-45 | the number printed for a mount names that mount alone; `0` is out of range |
| `Cli.DeleteListedNumber` | src/llmbox/cli.py:34-63 | deleting by a printed number splices out that mount |
| `Cli.HostTargetRemovesAll` | src/llmbox/cli.py:55-57 | a host target leaves no mount with that host behind |
| `Cli.MatchesOrderFree` | src/llmbox/cli.py:38-61 | when every target succeeds, reordering or repeating targets gives the same matches |
| `Cli.VolumeLines` | src/llmbox/cli.py:113-114 | line i is `i+1. <spec of mount i>` |
| `Cli.VolumeList` | src/llmbox/cli.py:102-114 | the listing succeeds iff the profile loads, with one numbered line per mount |
| `Cli.VolumeDelete` | src/llmbox/cli.py:117-132 | a load or target error stores nothing; otherwise the profile is saved with the surviving mounts and no other profile changes |
| `Cli.VolumeDeleteListedNumber` | src/llmbox/cli.py:102-132 | the number `volume list` prints for a mount deletes exactly that mount and keeps the rest in order |
| `Cli.Entries` | src/llmbox/cli.py:148-150 | entry i has number i+1 and name i, and it is marked iff it is the default |
| `Cli.ProfileList` | src/llmbox/cli.py:140-150 | one entry per stored profile, numbered from 1 in sorted order; an entry is marked iff it is `choose_existing_default`'s choice |
| `Cli.ProfileListMarksRunDefault` | src/llmbox/cli.py:146-150 | at most one entry is marked, and it is the profile a bare `run` uses, without creating anything |
| `Cli.ProfileListUnmarkedRunsDefault` | src/llmbox/cli.py:146-150 | with no entry marked, a bare `run` uses `default` |
| `Cli.ResolveDeleteToken` | src/llmbox/cli.py:172-178 | a number k names the k-th sorted profile iff 1 ≤ k ≤ count, else it is an out-of-range error; any other token is validated as a name |
| `Cli.TokensAreNumbersOrNames` | src/llmbox/cli.py:172-178 | a valid name is never all digits, so it is never read as a number |
| `Cli.ProfileDelete` | src/llmbox/cli.py:165-184 | a bad token stops the command before any deletion; otherwise the resolved names are deleted in order |
| `Cli.ProfileDeleteListedNumber` | src/llmbox/cli.py:170-182 | deleting by the number `profile list` prints removes that profile and nothing else |
| `Cli.ProfileDeleteAllOrNothing` | src/llmbox/cli.py:180-182 | one bad token anywhere leaves every profile in place and fails |
| `Cli.ParseSpecs` | src/llmbox/cli.py:92-97 | the specs parse in order to one mount each; otherwise the error is that of the first spec that fails |
| `Cli.AppendMounts` | src/llmbox/cli.py:92-99 | a parse failure stores nothing; otherwise the profile is saved with the new mounts after the old ones |
| `Cli.VolumeAdd` | src/llmbox/cli.py:76-99 | an invalid name or a failed ensure changes nothing; otherwise "Creating profile" is echoed iff the profile was created, and the mounts are appended and saved |
| `Cli.VolumeAddSucceeds` | src/llmbox/cli.py:83-99 | `volume add` succeeds iff the profile can be ensured and every spec parses |
| `Cli.VolumeAddExistingSucceeds` | src/llmbox/cli.py:83-99 | on an existing profile that loads, `volume add` succeeds whenever every spec parses, and announces no creation |
| `Cli.VolumeAddAppendsToExisting` | src/llmbox/cli.py:85-99 | for an existing profile, the new mounts follow the loaded ones in argument order |
| `Cli.VolumeAddCreates` | src/llmbox/cli.py:85-99 | for a missing profile, it is created holding just the new mounts |
| `Cli.VolumeAddFailureKeepsStore` | src/llmbox/cli.py:85-97 | a failure saves no mounts: a missing profile with a valid name stays created and empty, and otherwise the store is unchanged |
| `Cli.VolumeAddTouchesOnlyProfile` | src/llmbox/cli.py:83-99 | creation is echoed iff the profile was absent; no other profile changes |
| `Cli.VolumeAddLoadsBack` | src/llmbox/cli.py:85-99 | the saved profile loads back as the old mounts followed by the new ones |
| `Cli.VolumeAddHostsExist` | src/llmbox/cli.py:93-95 | without `--force` every appended host exists |
| `Cli.FailureMessages` | src/llmbox/cli.py:230-234 | one error line per failure, in order |
| `Cli.ProxyReload` | src/llmbox/cli.py:220-235 | it succeeds iff the name is valid and every listed container took the signal; no containers only warns; each failure is echoed, and then the command fails |
| `Cli.ProxyReloadReportsEachFailure` | src/llmbox/cli.py:229-234 | every container whose signal failed gets its own line, with its own detail |
| `Cli.Requested` | src/llmbox/cli.py:252 | `-` and an absent argument both mean no request; any other argument is passed on |
| `Cli.LaunchProfile` | src/llmbox/cli.py:278-289 | a dry run prints the command and launches nothing; a launch calls the runner once, and only a launch that exited 0 saves the state, with the profile's name |
| `Cli.RunResolved` | src/llmbox/cli.py:257-289 | a profile that fails to load stops `run` after the creation line; otherwise it launches with the banner and the command built from the loaded mounts |
| `Cli.Run` | src/llmbox/cli.py:238-289 | the request, after `-` handling, goes through the profile resolution for run; its error stops the command with nothing done, otherwise the resolved store, name and creation flag are loaded and launched; the store gains at most an empty `default`; a successful run's profile is valid, stored and loads |
| `Cli.RunNamedLaunchesIt` | src/llmbox/cli.py:252-289 | `run NAME` for a valid, stored profile that loads launches exactly the command built for that profile's own mounts, leaves the store alone, succeeds iff that command exits 0, and then records NAME |
| `Cli.RunLaunchesOnce` | src/llmbox/cli.py:278-288 | at most one runner call, ending with the chosen image; a launch succeeds iff it exits 0 |
| `Cli.RunDashIsNoProfile` | src/llmbox/cli.py:252 | `run -` behaves exactly like `run` without a profile |
| `Cli.RunMissingProfile` | src/llmbox/cli.py:252-256 | a named, missing profile stops `run` with nothing created, echoed, launched or saved |
| `Cli.RunRemembersProfile` | src/llmbox/cli.py:289 | after a successful launch, a bare `run` picks the same profile again |
| `Cli.DryRunShowsLaunch` | src/llmbox/cli.py:270-288 | read with the same clock, the dry run prints exactly the command a real run launches |
| `Cli.RunSavesStateLast` | src/llmbox/cli.py:278-289 | a dry run launches nothing and keeps the state; a failure keeps the state; the state changes only after a launch that exited 0, and then to the profile used |

## Left out

- `src/llmbox/settings.py` is not part of this model: its layered configuration is the library's and is not visible. The settings are a parameter (configuration directory and image), and `load_state`/`save_state` become a `State` taken and returned.
- YAML text and real file operations (mkdir, write, unlink, rename, glob) are left out. The store is a map from profile name to the parsed document. `sort_keys` and other layout do not affect what loads back.
- `Path.resolve`, `expanduser` and `exists` are oracle functions in `Fs`. Symlinks and the real directory tree are outside the model.
- `Volumes.NormalizeHostPath`: `Fs.resolve` is total, so the `RuntimeError` that `Path.resolve(strict=False)` raises on a symlink loop in Python 3.12 and earlier is not modelled.
- The blocklist `mkdir`/`touch` in `build_run_command` is a side effect on the filesystem and does not change the command, so it is left out.
- `_timestamp` is the wall clock, so it is a parameter. `run` builds the command twice, so it takes two readings.
- `subprocess` is a runner function. Exceptions the runner itself raises, such as a missing `docker` binary, are not modelled. `check=True` becomes the `CommandFailed` error.
- Click parsing is not modelled: option handling, `required=True` on the variadic arguments, exit codes and the exact text of error messages. Each exception is an `Error` constructor instead of its message.
- `profile create`, `profile rename` and `profile copy` on the command line only validate the names and call the manager. They are covered by `Profiles.Create`, `Profiles.Rename` and `Profiles.Copy`, and the commands themselves are not modelled separately.
- pydantic's `ProfileData` validation is not modelled in full:
  - the order in which it reports several errors at once is library-defined, and the model reports the `volumes` error first;
  - a `VolumeMount` object inside a loaded list cannot come out of YAML, so that branch (src/llmbox/profiles.py:31) is left out.
- `Text.IsDigits`: `str.isdigit` is modelled on ASCII digits only. Other Unicode digits are left out.
- YAML non-string keys and floats are not part of `Yaml`. Keys are strings, and a float would be refused as a volume list or entry like any other scalar.
- `Docker.OutputLines`: `splitlines` is modelled as a split at every line-break character. This differs from Python only in blank pieces (`\r\n`, a trailing break), which the filter drops anyway.
- `Paths.PurePath`: pathlib's handling of `\x00`, and any platform other than POSIX, are left out.
- `llm/add_ip_ranges_to_nft_sets.py` and the version lookup in `src/llmbox/__init__.py` are outside the core.

=== FILE: cli.dfy ===
/**
 * The command-line layer: what the `llmbox` commands add on top of the
 * profile store and the container runtime. Numbered and path targets for
 * `volume delete`, numbered tokens for `profile delete`, the default marker
 * of `profile list`, the abort rule of `volume add`, the outcome of
 * `proxy reload`, and the order of effects in `run`.
 *
 * Echoed lines are returned as a sequence of strings; an error is the
 * exception the command ends with.
 */
module Cli {
  import opened Errors
  import opened Text
  import opened Paths
  import opened Volumes
  import opened Profiles
  import opened Docker

  /** `State`: the profile the last successful `run` used. */
  datatype State = State(lastProfile: Option<string>)

  /** The settings the commands read: the configuration directory and the
      configured image. */
  datatype Settings = Settings(configDir: Path, imageName: string)

  // ---------------------------------------------------------------------
  // volume delete

  /** The positions of the mounts whose host is `host`. */
  function HostMatches(volumes: seq<VolumeMount>, host: Path): set<int>
  {
    set i | 0 <= i < |volumes| && volumes[i].host == host
  }

  /** The positions of the mounts equal to `mount`, host and container. */
  function MountMatches(volumes: seq<VolumeMount>, mount: VolumeMount): set<int>
  {
    set i | 0 <= i < |volumes| && volumes[i] == mount
  }

  /** The positions one target of `volume delete` names: a number is a
      1-based position, a spec with a colon names the mounts with that host
      and container, anything else the mounts with that host. */
  function TargetIndices(volumes: seq<VolumeMount>, target: string, cwd: Path, fs: Fs): (r: Result<set<int>>)
    ensures r.Ok? ==> r.value != {} && forall i :: i in r.value ==> 0 <= i < |volumes|
    ensures IsDigits(target) ==> (r.Ok? <==> 1 <= DecimalValue(target) <= |volumes|)
    ensures IsDigits(target) && r.Ok? ==> r.value == {DecimalValue(target) - 1}
    ensures IsDigits(target) && r.Err? ==> r.error == VolumeNumberOutOfRange(target)
    ensures !IsDigits(target) && ':' !in target ==>
      (r.Ok? <==> NormalizeHostPath(target, cwd, fs).Ok? && HostMatches(volumes, NormalizeHostPath(target, cwd, fs).value) != {})
    ensures !IsDigits(target) && ':' !in target && r.Ok? ==>
      r.value == HostMatches(volumes, NormalizeHostPath(target, cwd, fs).value)
    ensures !IsDigits(target) && ':' in target ==>
      (r.Ok? <==> ParseMountSpec(target, cwd, true, fs).Ok? && MountMatches(volumes, ParseMountSpec(target, cwd, true, fs).value) != {})
    ensures !IsDigits(target) && ':' in target && r.Ok? ==>
      r.value == MountMatches(volumes, ParseMountSpec(target, cwd, true, fs).value)
    ensures !IsDigits(target) && r.Err? ==>
      r.error == VolumeNotFound(target) || r.error == EmptyHostPart || r.error == NoHomeDirectory
    ensures !IsDigits(target) && ':' !in target && NormalizeHostPath(target, cwd, fs).Err? ==>
      r == Err(NormalizeHostPath(target, cwd, fs).error)
    ensures !IsDigits(target) && ':' !in target && NormalizeHostPath(target, cwd, fs).Ok? && r.Err? ==>
      r.error == VolumeNotFound(target)
    ensures !IsDigits(target) && ':' in target && ParseMountSpec(target, cwd, true, fs).Err? ==>
      r == Err(ParseMountSpec(target, cwd, true, fs).error)
    ensures !IsDigits(target) && ':' in target && ParseMountSpec(target, cwd, true, fs).Ok? && r.Err? ==>
      r.error == VolumeNotFound(target)
  {
    if IsDigits(target) then
      var index := DecimalValue(target) - 1;
      if index < 0 || index >= |volumes| then Err(VolumeNumberOutOfRange(target))
      else Ok({index})
    else
      var indices :-
        if ':' in target then
          var mount :- ParseMountSpec(target, cwd, true, fs);
          Ok(MountMatches(volumes, mount))
        else
          var host :- NormalizeHostPath(target, cwd, fs);
          Ok(HostMatches(volumes, host));
      if indices == {} then Err(VolumeNotFound(target)) else Ok(indices)
  }

  /** `TargetIndices` as a function of the target alone. */
  function Finder(volumes: seq<VolumeMount>, cwd: Path, fs: Fs): string -> Result<set<int>>
  {
    target => TargetIndices(volumes, target, cwd, fs)
  }

  /** The union of a list of sets. */
  function UnionAll(sets: seq<set<int>>): (r: set<int>)
    ensures forall i :: i in r <==> exists k :: 0 <= k < |sets| && i in sets[k]
    decreases |sets|
  {
    if |sets| == 0 then {}
    else
      var init := sets[..|sets| - 1];
      assert forall k :: 0 <= k < |init| ==> init[k] == sets[k];
      UnionAll(init) + sets[|sets| - 1]
  }

  /** The positions all targets name together; the first target, in order,
      that names nothing or a number out of range is the error. */
  function Matches(volumes: seq<VolumeMount>, targets: seq<string>, cwd: Path, fs: Fs): (r: Result<set<int>>)
    ensures r.Ok? <==> forall k :: 0 <= k < |targets| ==> TargetIndices(volumes, targets[k], cwd, fs).Ok?
    ensures r.Ok? ==> forall i :: i in r.value <==>
      exists k :: 0 <= k < |targets| && i in TargetIndices(volumes, targets[k], cwd, fs).value
    ensures r.Ok? ==> forall i :: i in r.value ==> 0 <= i < |volumes|
    ensures r.Err? ==> exists k :: (0 <= k < |targets| && TargetIndices(volumes, targets[k], cwd, fs) == Err(r.error)
      && forall j :: 0 <= j < k ==> TargetIndices(volumes, targets[j], cwd, fs).Ok?)
  {
    var found :- MapResult(targets, Finder(volumes, cwd, fs));
    Ok(UnionAll(found))
  }

  /** The mounts whose positions are not in `matches`, in their order. */
  function Remaining(volumes: seq<VolumeMount>, matches: set<int>): (r: seq<VolumeMount>)
    ensures |r| <= |volumes|
    decreases |volumes|
  {
    if |volumes| == 0 then []
    else
      var last := |volumes| - 1;
      Remaining(volumes[..last], matches) + (if last in matches then [] else [volumes[last]])
  }

  /** The positions below `n` that are not in `matches`, increasing. */
  function Kept(n: nat, matches: set<int>): (r: seq<int>)
    ensures forall k :: 0 <= k < |r| ==> 0 <= r[k] < n && r[k] !in matches
    ensures forall i :: 0 <= i < n && i !in matches ==> i in r
    ensures forall a, b :: 0 <= a < b < |r| ==> r[a] < r[b]
  {
    if n == 0 then [] else Kept(n - 1, matches) + (if n - 1 in matches then [] else [n - 1])
  }

  /** What is left is the mounts at the kept positions, in increasing
      position order. */
  lemma {:induction false} RemainingAtKept(volumes: seq<VolumeMount>, matches: set<int>)
    ensures |Remaining(volumes, matches)| == |Kept(|volumes|, matches)|
    ensures forall k :: 0 <= k < |Kept(|volumes|, matches)| ==>
      Remaining(volumes, matches)[k] == volumes[Kept(|volumes|, matches)[k]]
    decreases |volumes|
  {
    if |volumes| > 0 {
      var last := |volumes| - 1;
      var init := volumes[..last];
      RemainingAtKept(init, matches);
      var before := Remaining(init, matches);
      var kept := Kept(last, matches);
      var rest := Remaining(volumes, matches);
      var all := Kept(|volumes|, matches);
      assert rest == before + (if last in matches then [] else [volumes[last]]);
      assert all == kept + (if last in matches then [] else [last]);
      forall k | 0 <= k < |all|
        ensures rest[k] == volumes[all[k]]
      {
        if k < |kept| {
          assert rest[k] == before[k] == init[kept[k]];
          assert all[k] == kept[k];
        }
      }
    }
  }

  /** Nothing matched leaves every mount; every position matched leaves none. */
  lemma {:induction false} RemainingExtremes(volumes: seq<VolumeMount>, matches: set<int>)
    ensures (forall i :: 0 <= i < |volumes| ==> i !in matches) ==> Remaining(volumes, matches) == volumes
    ensures (forall i :: 0 <= i < |volumes| ==> i in matches) ==> Remaining(volumes, matches) == []
    decreases |volumes|
  {
    if |volumes| > 0 {
      var last := |volumes| - 1;
      RemainingExtremes(volumes[..last], matches);
      assert volumes[..last] + [volumes[last]] == volumes;
    }
  }

  /** Removing one position splices the sequence around it. */
  lemma {:induction false} RemainingWithout(volumes: seq<VolumeMount>, i: nat)
    requires i < |volumes|
    ensures Remaining(volumes, {i}) == volumes[..i] + volumes[i + 1..]
    decreases |volumes|
  {
    var last := |volumes| - 1;
    if i == last {
      RemainingExtremes(volumes[..last], {i});
    } else {
      RemainingWithout(volumes[..last], i);
      assert volumes[..last][..i] == volumes[..i];
      assert volumes[..last][i + 1..] + [volumes[last]] == volumes[i + 1..];
    }
  }

  /** The first loop of `_delete_targets_from_volumes`: the union of what
      each target names, stopping at the first target that fails. */
  method GatherMatches(targets: seq<string>, find: string -> Result<set<int>>) returns (r: Result<set<int>>)
    ensures MapResult(targets, find).Err? ==> r == Err(MapResult(targets, find).error)
    ensures MapResult(targets, find).Ok? ==> r == Ok(UnionAll(MapResult(targets, find).value))
  {
    var found: seq<set<int>> := [];
    var matches: set<int> := {};
    var k := 0;
    while k < |targets|
      invariant 0 <= k <= |targets|
      invariant MapResult(targets[..k], find) == Ok(found)
      invariant matches == UnionAll(found)
    {
      var indices := find(targets[k]);
      MapResultStep(targets, find, k);
      if indices.Err? {
        MapResultPrefixError(targets, find, k + 1);
        return Err(indices.error);
      }
      assert (found + [indices.value])[..|found|] == found;
      found := found + [indices.value];
      matches := matches + indices.value;
      k := k + 1;
    }
    assert targets[..k] == targets;
    return Ok(matches);
  }

  /** The second loop: the mounts at positions not matched, in order. */
  method KeepUnmatched(volumes: seq<VolumeMount>, matches: set<int>) returns (remaining: seq<VolumeMount>)
    ensures remaining == Remaining(volumes, matches)
  {
    remaining := [];
    var i := 0;
    while i < |volumes|
      invariant 0 <= i <= |volumes|
      invariant remaining == Remaining(volumes[..i], matches)
    {
      assert volumes[..i + 1][..i] == volumes[..i];
      if i !in matches {
        remaining := remaining + [volumes[i]];
      }
      i := i + 1;
    }
    assert volumes[..i] == volumes;
  }

  /** `_delete_targets_from_volumes`: gather the positions every target
      names, failing at the first target that names none, then keep the
      other mounts in order. */
  method DeleteTargetsFromVolumes(volumes: seq<VolumeMount>, targets: seq<string>, cwd: Path, fs: Fs)
    returns (r: Result<seq<VolumeMount>>)
    ensures Matches(volumes, targets, cwd, fs).Err? ==> r == Err(Matches(volumes, targets, cwd, fs).error)
    ensures Matches(volumes, targets, cwd, fs).Ok? ==> r == Ok(Remaining(volumes, Matches(volumes, targets, cwd, fs).value))
  {
    var gathered := GatherMatches(targets, Finder(volumes, cwd, fs));
    if gathered.Err? {
      return Err(gathered.error);
    }
    var remaining := KeepUnmatched(volumes, gathered.value);
    return Ok(remaining);
  }

  /** The number `volume list` prints for a mount names exactly that mount;
      "0" names none. */
  lemma ListedNumberTarget(volumes: seq<VolumeMount>, i: nat, cwd: Path, fs: Fs)
    requires i < |volumes|
    ensures TargetIndices(volumes, DecimalText(i + 1), cwd, fs) == Ok({i})
    ensures TargetIndices(volumes, "0", cwd, fs) == Err(VolumeNumberOutOfRange("0"))
  {
    DecimalRoundTrip(i + 1);
    assert DecimalValue("0") == 0 by {
      assert "0"[..0] == "";
    }
  }

  /** Deleting by the number `volume list` prints splices out that mount. */
  lemma DeleteListedNumber(volumes: seq<VolumeMount>, i: nat, cwd: Path, fs: Fs)
    requires i < |volumes|
    ensures Matches(volumes, [DecimalText(i + 1)], cwd, fs) == Ok({i})
    ensures Remaining(volumes, {i}) == volumes[..i] + volumes[i + 1..]
  {
    ListedNumberTarget(volumes, i, cwd, fs);
    var m := Matches(volumes, [DecimalText(i + 1)], cwd, fs);
    assert m.Ok?;
    assert m.value == {i} by {
      forall j ensures j in m.value <==> j == i {
        assert j in m.value <==> j in TargetIndices(volumes, [DecimalText(i + 1)][0], cwd, fs).value;
      }
    }
    RemainingWithout(volumes, i);
  }

  /** A host target leaves no mount with that host behind. */
  lemma HostTargetRemovesAll(volumes: seq<VolumeMount>, target: string, cwd: Path, fs: Fs)
    requires !IsDigits(target) && ':' !in target
    requires Matches(volumes, [target], cwd, fs).Ok?
    ensures NormalizeHostPath(target, cwd, fs).Ok?
    ensures forall k :: 0 <= k < |Remaining(volumes, Matches(volumes, [target], cwd, fs).value)| ==>
      Remaining(volumes, Matches(volumes, [target], cwd, fs).value)[k].host != NormalizeHostPath(target, cwd, fs).value
  {
    var matches := Matches(volumes, [target], cwd, fs).value;
    assert TargetIndices(volumes, [target][0], cwd, fs).Ok?;
    var host := NormalizeHostPath(target, cwd, fs).value;
    assert forall i :: i in matches <==> i in HostMatches(volumes, host) by {
      forall i ensures i in matches <==> i in TargetIndices(volumes, [target][0], cwd, fs).value {
      }
    }
    RemainingAtKept(volumes, matches);
    forall k | 0 <= k < |Remaining(volumes, matches)|
      ensures Remaining(volumes, matches)[k].host != host
    {
      var j := Kept(|volumes|, matches)[k];
      assert j !in HostMatches(volumes, host);
    }
  }

  /** When every target succeeds, their order and repetitions do not
      matter. */
  lemma MatchesOrderFree(volumes: seq<VolumeMount>, a: seq<string>, b: seq<string>, cwd: Path, fs: Fs)
    requires Matches(volumes, a + b, cwd, fs).Ok?
    ensures Matches(volumes, b + a, cwd, fs) == Matches(volumes, a + b, cwd, fs)
    ensures Matches(volumes, a + b + a, cwd, fs) == Matches(volumes, a + b, cwd, fs)
  {
    ReorderSameUnion(a, b, Finder(volumes, cwd, fs));
  }

  lemma ReorderSameUnion(a: seq<string>, b: seq<string>, find: string -> Result<set<int>>)
    requires MapResult(a + b, find).Ok?
    ensures MapResult(b + a, find).Ok? && UnionAll(MapResult(b + a, find).value) == UnionAll(MapResult(a + b, find).value)
    ensures MapResult(a + b + a, find).Ok? && UnionAll(MapResult(a + b + a, find).value) == UnionAll(MapResult(a + b, find).value)
  {
    var ab := a + b;
    var ba := b + a;
    var aba := a + b + a;
    forall k | 0 <= k < |ba| ensures ba[k] in ab {
      if k < |b| { assert ba[k] == ab[|a| + k]; } else { assert ba[k] == ab[k - |b|]; }
    }
    forall k | 0 <= k < |ab| ensures ab[k] in ba {
      if k < |a| { assert ab[k] == ba[|b| + k]; } else { assert ab[k] == ba[k - |a|]; }
    }
    forall k | 0 <= k < |aba| ensures aba[k] in ab {
      if k < |ab| { assert aba[k] == ab[k]; } else { assert aba[k] == ab[k - |ab|]; }
    }
    forall k | 0 <= k < |ab| ensures ab[k] in aba {
      assert ab[k] == aba[k];
    }
    SameElementsSameUnion(ab, ba, find);
    SameElementsSameUnion(ab, aba, find);
  }

  /** Two lists holding the same elements, each of which succeeds, give the
      same union. */
  lemma SameElementsSameUnion(xs: seq<string>, ys: seq<string>, find: string -> Result<set<int>>)
    requires MapResult(xs, find).Ok?
    requires forall k :: 0 <= k < |xs| ==> xs[k] in ys
    requires forall k :: 0 <= k < |ys| ==> ys[k] in xs
    ensures MapResult(ys, find).Ok?
    ensures UnionAll(MapResult(ys, find).value) == UnionAll(MapResult(xs, find).value)
  {
    forall k | 0 <= k < |ys| ensures find(ys[k]).Ok? {
      var j :| 0 <= j < |xs| && xs[j] == ys[k];
    }
    UnionIncluded(xs, ys, find);
    UnionIncluded(ys, xs, find);
  }

  lemma UnionIncluded(xs: seq<string>, ys: seq<string>, find: string -> Result<set<int>>)
    requires MapResult(xs, find).Ok? && MapResult(ys, find).Ok?
    requires forall k :: 0 <= k < |ys| ==> ys[k] in xs
    ensures UnionAll(MapResult(ys, find).value) <= UnionAll(MapResult(xs, find).value)
  {
    var fx := MapResult(xs, find).value;
    var fy := MapResult(ys, find).value;
    forall i | i in UnionAll(fy) ensures i in UnionAll(fx) {
      var k :| 0 <= k < |fy| && i in fy[k];
      var j :| 0 <= j < |xs| && xs[j] == ys[k];
      assert i in fx[j];
    }
  }

  /** One line of a numbered listing: `f"{number}. {text}"`. */
  function NumberedLine(number: nat, text: string): string
  {
    DecimalText(number) + ". " + text
  }

  /** The lines of `volume list`: the 1-based number, then the spec. */
  function VolumeLines(volumes: seq<VolumeMount>): (r: seq<string>)
    ensures |r| == |volumes|
    ensures forall i :: 0 <= i < |volumes| ==> r[i] == NumberedLine(i + 1, volumes[i].Spec())
  {
    if |volumes| == 0 then []
    else VolumeLines(volumes[..|volumes| - 1]) + [NumberedLine(|volumes|, volumes[|volumes| - 1].Spec())]
  }

  /** `volume list`. */
  function VolumeList(store: Store, profile: string, fs: Fs): (r: Result<seq<string>>)
    ensures r.Ok? <==> Load(store, profile, fs).Ok?
    ensures r.Err? ==> r.error == Load(store, profile, fs).error
    ensures r.Ok? ==> r.value == VolumeLines(Load(store, profile, fs).value.volumes)
  {
    var data :- Load(store, profile, fs);
    Ok(VolumeLines(data.volumes))
  }

  /** `volume delete`: validate, load, drop the named mounts, save; any
      failure leaves the store as it was. */
  function VolumeDelete(store: Store, profile: string, targets: seq<string>, cwd: Path, fs: Fs): (r: Result<Store>)
    ensures Load(store, profile, fs).Err? ==> r == Err(Load(store, profile, fs).error)
    ensures Load(store, profile, fs).Ok? ==>
      var volumes := Load(store, profile, fs).value.volumes;
      && (Matches(volumes, targets, cwd, fs).Err? ==> r == Err(Matches(volumes, targets, cwd, fs).error))
      && (Matches(volumes, targets, cwd, fs).Ok? ==>
            r == Ok(store[profile := Encode(ProfileData(Remaining(volumes, Matches(volumes, targets, cwd, fs).value)))]))
    ensures r.Ok? ==> r.value.Keys == store.Keys && forall n :: n in store && n != profile ==> r.value[n] == store[n]
  {
    var name :- ValidateProfileName(profile);
    var data :- Load(store, name, fs);
    var matches :- Matches(data.volumes, targets, cwd, fs);
    Save(store, name, ProfileData(Remaining(data.volumes, matches)))
  }

  /** Deleting the mount `volume list` numbers `i + 1` stores the other
      mounts in their order. */
  lemma VolumeDeleteListedNumber(store: Store, profile: string, i: nat, cwd: Path, fs: Fs)
    requires Load(store, profile, fs).Ok?
    requires i < |Load(store, profile, fs).value.volumes|
    ensures VolumeList(store, profile, fs).value[i] == NumberedLine(i + 1, Load(store, profile, fs).value.volumes[i].Spec())
    ensures var volumes := Load(store, profile, fs).value.volumes;
      VolumeDelete(store, profile, [DecimalText(i + 1)], cwd, fs)
        == Ok(store[profile := Encode(ProfileData(volumes[..i] + volumes[i + 1..]))])
  {
    DeleteListedNumber(Load(store, profile, fs).value.volumes, i, cwd, fs);
  }

  // ---------------------------------------------------------------------
  // profile list and profile delete

  /** One line of `profile list`: its number, the name, and whether the
      name carries the default marker. */
  datatype Entry = Entry(number: nat, name: string, marked: bool)

  /** The text of an entry, `f"{idx}. {name}{marker}"`. */
  function EntryLine(e: Entry): string
  {
    NumberedLine(e.number, e.name + (if e.marked then " *" else ""))
  }

  function Entries(profiles: seq<string>, default: Option<string>): (r: seq<Entry>)
    ensures |r| == |profiles|
    ensures forall i :: 0 <= i < |profiles| ==>
      r[i].number == i + 1 && r[i].name == profiles[i] && (r[i].marked <==> default == Some(profiles[i]))
  {
    if |profiles| == 0 then []
    else
      var last := profiles[|profiles| - 1];
      Entries(profiles[..|profiles| - 1], default) + [Entry(|profiles|, last, default == Some(last))]
  }

  /** `profile list`: the stored names in sorted order, numbered from 1,
      the default `run` would pick marked. */
  function ProfileList(store: Store, state: State): (r: seq<Entry>)
    ensures |r| == |store|
    ensures forall i :: 0 <= i < |r| ==> r[i].number == i + 1 && r[i].name == ListProfiles(store)[i] && r[i].name in store
    ensures forall i :: 0 <= i < |r| ==>
      (r[i].marked <==> ChooseExistingDefault(ListProfiles(store), state.lastProfile) == Some(r[i].name))
    ensures forall i, j :: 0 <= i < j < |r| ==> Below(r[i].name, r[j].name) && r[i].name != r[j].name
  {
    var profiles := ListProfiles(store);
    Entries(profiles, ChooseExistingDefault(profiles, state.lastProfile))
  }

  /** At most one profile is marked, and the marked one is the profile a
      `run` without a profile argument uses, without creating anything. */
  lemma ProfileListMarksRunDefault(store: Store, state: State, i: nat)
    requires i < |ProfileList(store, state)| && ProfileList(store, state)[i].marked
    ensures forall j :: 0 <= j < |ProfileList(store, state)| && j != i ==> !ProfileList(store, state)[j].marked
    ensures ResolveProfileForRun(store, state.lastProfile, None) == Ok((store, ProfileList(store, state)[i].name, false))
  {
    var entries := ProfileList(store, state);
    RunUsesExistingDefault(store, state.lastProfile);
    forall j | 0 <= j < |entries| && j != i
      ensures !entries[j].marked
    {
      assert entries[j].name != entries[i].name by {
        if j < i {
          assert Below(entries[j].name, entries[i].name) && entries[j].name != entries[i].name;
        } else {
          assert Below(entries[i].name, entries[j].name) && entries[i].name != entries[j].name;
        }
      }
    }
  }

  /** With nothing marked, a `run` without a profile argument uses
      `default`, creating it when it is missing. */
  lemma ProfileListUnmarkedRunsDefault(store: Store, state: State)
    requires forall i :: 0 <= i < |ProfileList(store, state)| ==> !ProfileList(store, state)[i].marked
    ensures ResolveProfileForRun(store, state.lastProfile, None).Ok?
    ensures ResolveProfileForRun(store, state.lastProfile, None).value.1 == DefaultProfile
  {
    var profiles := ListProfiles(store);
    var chosen := ChooseExistingDefault(profiles, state.lastProfile);
    var entries := ProfileList(store, state);
    forall i | 0 <= i < |profiles|
      ensures chosen != Some(profiles[i])
    {
      assert !entries[i].marked && entries[i].name == profiles[i];
    }
    assert chosen.None?;
    RunUsesExistingDefault(store, state.lastProfile);
  }

  /** One token of `profile delete`: a number is a 1-based position in the
      sorted list, anything else must be a valid name. */
  function ResolveDeleteToken(profiles: seq<string>, token: string): (r: Result<string>)
    ensures IsDigits(token) ==> (r.Ok? <==> 1 <= DecimalValue(token) <= |profiles|)
    ensures IsDigits(token) && r.Ok? ==> r.value == profiles[DecimalValue(token) - 1]
    ensures IsDigits(token) && r.Err? ==> r.error == ProfileNumberOutOfRange(token)
    ensures !IsDigits(token) ==> r == ValidateProfileName(token)
  {
    if IsDigits(token) then
      var index := DecimalValue(token) - 1;
      if index < 0 || index >= |profiles| then Err(ProfileNumberOutOfRange(token))
      else Ok(profiles[index])
    else ValidateProfileName(token)
  }

  /** A name is never all digits, so a token is either a number or a name. */
  lemma TokensAreNumbersOrNames(token: string)
    ensures ValidName(token) ==> !IsDigits(token)
  {
  }

  function Resolver(profiles: seq<string>): string -> Result<string>
  {
    token => ResolveDeleteToken(profiles, token)
  }

  /** `profile delete`: every token is resolved against the sorted list
      first, and a bad token stops the command before anything is deleted;
      then the names are deleted in order as `delete` does. */
  function ProfileDelete(store: Store, tokens: seq<string>): (r: Partial)
    ensures MapResult(tokens, Resolver(ListProfiles(store))).Err? ==>
      r == Partial(store, Err(MapResult(tokens, Resolver(ListProfiles(store))).error))
    ensures MapResult(tokens, Resolver(ListProfiles(store))).Ok? ==>
      r == Delete(store, MapResult(tokens, Resolver(ListProfiles(store))).value)
  {
    match MapResult(tokens, Resolver(ListProfiles(store)))
    case Err(e) => Partial(store, Err(e))
    case Ok(names) => Delete(store, names)
  }

  /** Deleting by the number `profile list` prints removes that profile
      and nothing else. */
  lemma ProfileDeleteListedNumber(store: Store, state: State, i: nat)
    requires i < |store|
    requires ValidName(ProfileList(store, state)[i].name)
    ensures ProfileDelete(store, [DecimalText(ProfileList(store, state)[i].number)])
      == Partial(store - {ProfileList(store, state)[i].name}, Ok(true))
  {
    var name := ListProfiles(store)[i];
    var token := DecimalText(ProfileList(store, state)[i].number);
    assert token == DecimalText(i + 1);
    ResolveListedNumber(ListProfiles(store), i);
    var r := ProfileDelete(store, [token]);
    assert r == Delete(store, [name]);
    DeleteOne(store, name);
  }

  /** The number printed for position `i` resolves to the name there. */
  lemma ResolveListedNumber(profiles: seq<string>, i: nat)
    requires i < |profiles|
    ensures MapResult([DecimalText(i + 1)], Resolver(profiles)) == Ok([profiles[i]])
  {
    var token := DecimalText(i + 1);
    DecimalRoundTrip(i + 1);
    assert Resolver(profiles)([token][0]) == Ok(profiles[i]);
    var r := MapResult([token], Resolver(profiles));
    assert r.Ok? && |r.value| == 1;
    assert r.value[0] == profiles[i];
    assert r.value == [profiles[i]];
  }

  /** A bad token anywhere leaves every profile in place, even those named
      before it. */
  lemma ProfileDeleteAllOrNothing(store: Store, tokens: seq<string>, k: nat)
    requires k < |tokens| && ResolveDeleteToken(ListProfiles(store), tokens[k]).Err?
    ensures ProfileDelete(store, tokens).store == store
    ensures ProfileDelete(store, tokens).outcome.Err?
  {
    assert Resolver(ListProfiles(store))(tokens[k]).Err?;
  }

  // ---------------------------------------------------------------------
  // volume add

  /** What a command leaves behind: the store, the lines it echoed, and
      whether it finished. */
  datatype Reply = Reply(store: Store, output: seq<string>, result: Result<()>)

  function SpecParser(cwd: Path, allowMissing: bool, fs: Fs): string -> Result<VolumeMount>
  {
    spec => ParseMountSpec(spec, cwd, allowMissing, fs)
  }

  /** The mounts `volume add` appends: each spec parsed in order, the first
      bad spec stopping the command. */
  function ParseSpecs(specs: seq<string>, cwd: Path, allowMissing: bool, fs: Fs): (r: Result<seq<VolumeMount>>)
    ensures r.Ok? ==> |r.value| == |specs|
    ensures r.Ok? ==> forall i :: 0 <= i < |specs| ==> ParseMountSpec(specs[i], cwd, allowMissing, fs) == Ok(r.value[i])
    ensures r.Err? ==>
      exists i :: 0 <= i < |specs| && ParseMountSpec(specs[i], cwd, allowMissing, fs) == Err(r.error)
        && forall j :: 0 <= j < i ==> ParseMountSpec(specs[j], cwd, allowMissing, fs).Ok?
    ensures (forall i :: 0 <= i < |specs| ==> ParseMountSpec(specs[i], cwd, allowMissing, fs).Ok?) ==> r.Ok?
  {
    var parser := SpecParser(cwd, allowMissing, fs);
    var r := MapResult(specs, parser);
    assert forall i :: 0 <= i < |specs| ==> parser(specs[i]) == ParseMountSpec(specs[i], cwd, allowMissing, fs);
    r
  }

  function CreatedLine(name: string): string
  {
    "Creating profile " + name
  }

  /** The last step of `volume add`: append the parsed mounts to the
      profile's data and save it, or keep the store when parsing failed. */
  function AppendMounts(store: Store, name: string, data: ProfileData, output: seq<string>,
                        parsed: Result<seq<VolumeMount>>): (r: Reply)
    requires ValidName(name)
    ensures r.output == output
    ensures r.result.Ok? <==> parsed.Ok?
    ensures parsed.Err? ==> r.store == store && r.result == Err(parsed.error)
    ensures parsed.Ok? ==> r.store == store[name := Encode(ProfileData(data.volumes + parsed.value))]
  {
    match parsed
    case Err(e) => Reply(store, output, Err(e))
    case Ok(mounts) => Reply(Save(store, name, ProfileData(data.volumes + mounts)).value, output, Ok(()))
  }

  /** `volume add`: load or create the profile, parse every spec, append
      the mounts and save. A bad spec aborts before saving, but a profile
      created on the way stays created. */
  function VolumeAdd(store: Store, profile: string, specs: seq<string>, force: bool, cwd: Path, fs: Fs): (r: Reply)
    ensures !ValidName(profile) ==> r == Reply(store, [], Err(ValidateProfileName(profile).error))
    ensures Ensure(store, profile, fs).Err? ==> r == Reply(store, [], Err(Ensure(store, profile, fs).error))
    ensures Ensure(store, profile, fs).Ok? ==>
      var (ensured, data, created) := Ensure(store, profile, fs).value;
      r == AppendMounts(ensured, profile, data, if created then [CreatedLine(profile)] else [],
                        ParseSpecs(specs, cwd, force, fs))
  {
    match ValidateProfileName(profile)
    case Err(e) => Reply(store, [], Err(e))
    case Ok(name) =>
      match Ensure(store, name, fs)
      case Err(e) => Reply(store, [], Err(e))
      case Ok((ensured, data, created)) =>
        AppendMounts(ensured, name, data, if created then [CreatedLine(name)] else [], ParseSpecs(specs, cwd, force, fs))
  }

  /** `volume add` succeeds exactly when the profile can be loaded or
      created and every spec parses. */
  lemma VolumeAddSucceeds(store: Store, profile: string, specs: seq<string>, force: bool, cwd: Path, fs: Fs)
    ensures VolumeAdd(store, profile, specs, force, cwd, fs).result.Ok?
        <==> Ensure(store, profile, fs).Ok? && ParseSpecs(specs, cwd, force, fs).Ok?
  {
  }

  /** `volume add` on an existing profile that loads succeeds whenever every
      spec parses: the profile is loaded, not refused. */
  lemma VolumeAddExistingSucceeds(store: Store, profile: string, specs: seq<string>, force: bool, cwd: Path, fs: Fs)
    requires ValidName(profile) && profile in store && Load(store, profile, fs).Ok?
    requires ParseSpecs(specs, cwd, force, fs).Ok?
    ensures VolumeAdd(store, profile, specs, force, cwd, fs).result.Ok?
    ensures VolumeAdd(store, profile, specs, force, cwd, fs).output == []
  {
    VolumeAddSucceeds(store, profile, specs, force, cwd, fs);
  }

  /** On an existing profile the new mounts follow the old ones, in the
      order given, and nothing else changes. */
  lemma VolumeAddAppendsToExisting(store: Store, profile: string, specs: seq<string>, force: bool, cwd: Path, fs: Fs)
    requires profile in store
    requires VolumeAdd(store, profile, specs, force, cwd, fs).result.Ok?
    ensures Load(store, profile, fs).Ok?
    ensures VolumeAdd(store, profile, specs, force, cwd, fs).store
         == store[profile := Encode(ProfileData(Load(store, profile, fs).value.volumes + ParseSpecs(specs, cwd, force, fs).value))]
  {
    var ensured := Ensure(store, profile, fs);
    assert ensured.Ok? && !ensured.value.2;
    assert VolumeAdd(store, profile, specs, force, cwd, fs)
        == AppendMounts(store, profile, ensured.value.1, [], ParseSpecs(specs, cwd, force, fs));
  }

  /** On a missing profile the profile is created holding just the new
      mounts. */
  lemma VolumeAddCreates(store: Store, profile: string, specs: seq<string>, force: bool, cwd: Path, fs: Fs)
    requires profile !in store
    requires VolumeAdd(store, profile, specs, force, cwd, fs).result.Ok?
    ensures VolumeAdd(store, profile, specs, force, cwd, fs).store
         == store[profile := Encode(ProfileData(ParseSpecs(specs, cwd, force, fs).value))]
  {
    var parsed := ParseSpecs(specs, cwd, force, fs);
    var ensured := Ensure(store, profile, fs);
    assert ensured.Ok? && ensured.value.2;
    assert VolumeAdd(store, profile, specs, force, cwd, fs)
        == AppendMounts(store[profile := Encode(Empty)], profile, Empty, [CreatedLine(profile)], parsed);
    assert Empty.volumes + parsed.value == parsed.value;
    Overwrite(store, profile, Encode(Empty), Encode(ProfileData(parsed.value)));
  }

  lemma Overwrite<K, V>(m: map<K, V>, k: K, a: V, b: V)
    ensures m[k := a][k := b] == m[k := b]
  {
  }

  /** A failed `volume add` saves nothing, though a missing profile it
      created on the way stays created and empty. */
  lemma VolumeAddFailureKeepsStore(store: Store, profile: string, specs: seq<string>, force: bool, cwd: Path, fs: Fs)
    requires VolumeAdd(store, profile, specs, force, cwd, fs).result.Err?
    ensures ValidName(profile) && profile !in store ==>
      VolumeAdd(store, profile, specs, force, cwd, fs).store == store[profile := Encode(Empty)]
    ensures !(ValidName(profile) && profile !in store) ==> VolumeAdd(store, profile, specs, force, cwd, fs).store == store
  {
  }

  /** `volume add` announces a profile it creates, and leaves every other
      profile as it was. */
  lemma VolumeAddTouchesOnlyProfile(store: Store, profile: string, specs: seq<string>, force: bool, cwd: Path, fs: Fs)
    ensures var r := VolumeAdd(store, profile, specs, force, cwd, fs);
      && r.output == (if ValidName(profile) && profile !in store then [CreatedLine(profile)] else [])
      && r.store.Keys <= store.Keys + {profile}
      && (r.result.Ok? ==> profile in r.store)
      && forall n :: n in store && n != profile ==> r.store[n] == store[n]
  {
    var r := VolumeAdd(store, profile, specs, force, cwd, fs);
    if ValidName(profile) && Ensure(store, profile, fs).Ok? && ParseSpecs(specs, cwd, force, fs).Ok? {
      var (ensured, data, created) := Ensure(store, profile, fs).value;
      var saved := Save(ensured, profile, ProfileData(data.volumes + ParseSpecs(specs, cwd, force, fs).value));
      assert r.store == saved.value;
    }
  }

  /** The appended profile loads back as the old mounts followed by the new
      ones, in the order given, whenever it can be stored without loss. */
  lemma VolumeAddLoadsBack(store: Store, profile: string, specs: seq<string>, force: bool, cwd: Path, fs: Fs)
    requires VolumeAdd(store, profile, specs, force, cwd, fs).result.Ok?
    requires Storable(ProfileData(Ensure(store, profile, fs).value.1.volumes + ParseSpecs(specs, cwd, force, fs).value), fs)
    ensures Load(VolumeAdd(store, profile, specs, force, cwd, fs).store, profile, fs)
      == Ok(ProfileData(Ensure(store, profile, fs).value.1.volumes + ParseSpecs(specs, cwd, force, fs).value))
  {
    var data := ProfileData(Ensure(store, profile, fs).value.1.volumes + ParseSpecs(specs, cwd, force, fs).value);
    assert VolumeAdd(store, profile, specs, force, cwd, fs).store[profile] == Encode(data);
    DecodeEncode(data, fs);
  }

  /** Without `--force` every appended host exists. */
  lemma VolumeAddHostsExist(store: Store, profile: string, specs: seq<string>, cwd: Path, fs: Fs)
    requires VolumeAdd(store, profile, specs, false, cwd, fs).result.Ok?
    ensures forall i :: 0 <= i < |ParseSpecs(specs, cwd, false, fs).value| ==>
      fs.pathExists(ParseSpecs(specs, cwd, false, fs).value[i].host)
  {
  }

  // ---------------------------------------------------------------------
  // proxy reload

  const NoContainersWarning: string := "Warning: no running containers for this profile"

  /** The line echoed for one failed container. */
  function FailureMessage(f: Failure): string
  {
    "Error: failed to reload proxy in container " + f.container + (if f.detail != "" then ": " + f.detail else "")
  }

  function FailureMessages(failures: seq<Failure>): (r: seq<string>)
    ensures |r| == |failures|
    ensures forall k :: 0 <= k < |failures| ==> r[k] == FailureMessage(failures[k])
  {
    if |failures| == 0 then [] else FailureMessages(failures[..|failures| - 1]) + [FailureMessage(failures[|failures| - 1])]
  }

  /** Every container the listing reported took the reload signal. */
  predicate AllReloaded(profile: string, runner: seq<string> -> ProcResult)
  {
    var listed := ListProfileContainers(profile, runner).result;
    listed.Ok? && forall c :: c in listed.value ==> runner(ExecCommand(c)).exitCode == 0
  }

  /** `proxy reload`: signal every running container of the profile; warn
      when there is none, report each failure and fail when any did. */
  method ProxyReload(profile: string, runner: seq<string> -> ProcResult)
    returns (calls: seq<seq<string>>, output: seq<string>, result: Result<()>)
    ensures !ValidName(profile) ==> calls == [] && output == [] && result == Err(ValidateProfileName(profile).error)
    ensures ValidName(profile) ==> |calls| > 0 && calls[0] == PsCommand(profile)
    ensures result.Ok? <==> ValidName(profile) && AllReloaded(profile, runner)
    ensures ValidName(profile) && ListProfileContainers(profile, runner).result.Err? ==>
      calls == [PsCommand(profile)] && output == [] && result == Err(ListProfileContainers(profile, runner).result.error)
    ensures ValidName(profile) && ListProfileContainers(profile, runner).result.Ok? ==>
      var containers := ListProfileContainers(profile, runner).result.value;
      && calls == [PsCommand(profile)] + ExecCommands(containers)
      && (containers == [] ==> output == [NoContainersWarning])
      && (containers != [] ==> output == FailureMessages(Failures(containers, runner)))
      && (result.Err? ==> result == Err(ProxyReloadFailed))
  {
    if !ValidName(profile) {
      return [], [], Err(ValidateProfileName(profile).error);
    }
    var reloaded;
    calls, reloaded := ReloadProxy(profile, runner);
    if reloaded.Err? {
      return calls, [], Err(reloaded.error);
    }
    var (containers, failures) := reloaded.value;
    FailuresExact(containers, runner);
    if |containers| == 0 {
      return calls, [NoContainersWarning], Ok(());
    }
    output := FailureMessages(failures);
    if |failures| > 0 {
      assert failures[0].container in FailedIds(failures);
      result := Err(ProxyReloadFailed);
    } else {
      assert forall c :: c in containers ==> c !in FailedIds(failures);
      result := Ok(());
    }
  }

  /** Each container whose signal exited non-zero gets its own line, with
      the detail of its own run. */
  lemma ProxyReloadReportsEachFailure(containers: seq<string>, runner: seq<string> -> ProcResult, c: string)
    requires c in containers && runner(ExecCommand(c)).exitCode != 0
    ensures FailureMessage(Failure(c, Detail(runner(ExecCommand(c))))) in FailureMessages(Failures(containers, runner))
  {
    var failures := Failures(containers, runner);
    FailuresExact(containers, runner);
    var ids := FailedIds(failures);
    assert c in ids;
    var k :| 0 <= k < |ids| && ids[k] == c;
    assert failures[k] in failures;
    assert failures[k] == Failure(c, Detail(runner(ExecCommand(c))));
    assert FailureMessages(failures)[k] == FailureMessage(failures[k]);
  }

  // ---------------------------------------------------------------------
  // run

  /** What `run` leaves behind: the store, the saved state, the commands
      handed to the runner, the echoed lines, and the profile it used. */
  datatype RunOutcome = RunOutcome(store: Store, state: State, calls: seq<seq<string>>, output: seq<string>, result: Result<string>)

  const NoVolumesWarning: string := "Warning: profile has no volumes"

  /** `-i` overrides the configured image when it is non-empty. */
  function ImageFor(settings: Settings, imageOption: Option<string>): string
  {
    if imageOption.Some? && imageOption.value != "" then imageOption.value else settings.imageName
  }

  /** A profile argument of `-` stands for no profile. */
  function Requested(profileArg: Option<string>): (r: Option<string>)
    ensures r.Some? ==> r == profileArg && r != Some("-")
    ensures profileArg.Some? && profileArg != Some("-") ==> r == profileArg
  {
    if profileArg.None? || profileArg.value == "-" then None else profileArg
  }

  /** The lines echoed before the launch. */
  function Banner(name: string, created: bool, volumes: seq<VolumeMount>): seq<string>
  {
    (if created then [CreatedLine(name)] else []) + ["Using profile " + name]
      + (if |volumes| == 0 then [NoVolumesWarning] else [])
  }

  /** `run` once the profile is known and loaded: print `preview` on a dry
      run, otherwise launch and remember the profile only when the launch
      succeeded. The command is built twice, as the source does, so the
      printed and the launched command differ in their clock reading. */
  function LaunchProfile(store: Store, state: State, settings: Settings, image: string, dryRun: bool, name: string,
                         data: ProfileData, args: seq<string>, banner: seq<string>, preview: seq<string>,
                         launchStamp: string, runner: seq<string> -> ProcResult): (r: RunOutcome)
    ensures r.store == store
    ensures r.result.Ok? ==> r.result.value == name
    ensures dryRun ==> r == RunOutcome(store, state, [], banner + [Join(preview, ' ')], Ok(name))
    ensures !dryRun ==>
      && r.output == banner
      && r.calls == [BuildRunCommand(image, name, data.volumes, args, settings.configDir, launchStamp).command]
      && (r.result.Ok? <==> runner(r.calls[0]).exitCode == 0)
      && r.state == (if r.result.Ok? then State(Some(name)) else state)
  {
    if dryRun then
      RunOutcome(store, state, [], banner + [Join(preview, ' ')], Ok(name))
    else
      var launched := RunContainer(image, name, data.volumes, args, settings.configDir, launchStamp, runner);
      match launched.result
      case Err(e) => RunOutcome(store, state, launched.calls, banner, Err(e))
      case Ok(_) => RunOutcome(store, State(Some(name)), launched.calls, banner, Ok(name))
  }

  /** `run` once the profile is resolved: load it and launch it. */
  function RunResolved(store: Store, state: State, settings: Settings, image: string, dryRun: bool,
                       name: string, created: bool, args: seq<string>, fs: Fs,
                       previewStamp: string, launchStamp: string, runner: seq<string> -> ProcResult): (r: RunOutcome)
    ensures r.store == store
    ensures Load(store, name, fs).Err? ==>
      r == RunOutcome(store, state, [], if created then [CreatedLine(name)] else [], Err(Load(store, name, fs).error))
    ensures Load(store, name, fs).Ok? ==>
      var data := Load(store, name, fs).value;
      r == LaunchProfile(store, state, settings, image, dryRun, name, data, args, Banner(name, created, data.volumes),
                         BuildRunCommand(image, name, data.volumes, args, settings.configDir, previewStamp).command,
                         launchStamp, runner)
  {
    match Load(store, name, fs)
    case Err(e) => RunOutcome(store, state, [], if created then [CreatedLine(name)] else [], Err(e))
    case Ok(data) =>
      var preview := BuildRunCommand(image, name, data.volumes, args, settings.configDir, previewStamp);
      LaunchProfile(store, state, settings, image, dryRun, name, data, args, Banner(name, created, data.volumes),
                    preview.command, launchStamp, runner)
  }

  /** `run [PROFILE] [ARGS...]`: resolve the profile (creating `default`
      when needed), load it, then launch or print the container command. */
  function Run(store: Store, state: State, settings: Settings, imageOption: Option<string>, dryRun: bool,
               profileArg: Option<string>, args: seq<string>, fs: Fs,
               previewStamp: string, launchStamp: string, runner: seq<string> -> ProcResult): (r: RunOutcome)
    ensures r.store == store || ("default" !in store && r.store == store["default" := Encode(Empty)])
    ensures r.result.Ok? ==> r.result.value in r.store && ValidName(r.result.value)
    ensures r.result.Ok? ==> Load(r.store, r.result.value, fs).Ok?
    ensures var res := ResolveProfileForRun(store, state.lastProfile, Requested(profileArg));
      && (res.Err? ==> r == RunOutcome(store, state, [], [], Err(res.error)))
      && (res.Ok? ==> r == RunResolved(res.value.0, state, settings, ImageFor(settings, imageOption), dryRun,
                                       res.value.1, res.value.2, args, fs, previewStamp, launchStamp, runner))
  {
    var image := ImageFor(settings, imageOption);
    match ResolveProfileForRun(store, state.lastProfile, Requested(profileArg))
    case Err(e) => RunOutcome(store, state, [], [], Err(e))
    case Ok((resolved, name, created)) =>
      var r := RunResolved(resolved, state, settings, image, dryRun, name, created, args, fs, previewStamp, launchStamp, runner);
      assert r.result.Ok? ==> Load(resolved, name, fs).Ok? && r.result.value == name;
      r
  }

  /** `run NAME` for a valid, stored profile that loads launches that
      profile, with its own mounts, and remembers it after a clean exit. */
  lemma RunNamedLaunchesIt(store: Store, state: State, settings: Settings, imageOption: Option<string>,
                           name: string, args: seq<string>, fs: Fs,
                           previewStamp: string, launchStamp: string, runner: seq<string> -> ProcResult)
    requires name != "-" && ValidName(name) && name in store && Load(store, name, fs).Ok?
    ensures var r := Run(store, state, settings, imageOption, false, Some(name), args, fs, previewStamp, launchStamp, runner);
      && r.store == store
      && r.calls == [BuildRunCommand(ImageFor(settings, imageOption), name, Load(store, name, fs).value.volumes, args,
                                     settings.configDir, launchStamp).command]
      && (r.result.Ok? <==> runner(r.calls[0]).exitCode == 0)
      && (r.result.Ok? ==> r.result.value == name && r.state == State(Some(name)))
  {
    assert ResolveProfileForRun(store, state.lastProfile, Requested(Some(name))) == Ok((store, name, false));
  }

  /** A run hands the runner at most one command, for the chosen image, and
      succeeds exactly when that command exits 0. */
  lemma RunLaunchesOnce(store: Store, state: State, settings: Settings, imageOption: Option<string>, dryRun: bool,
                        profileArg: Option<string>, args: seq<string>, fs: Fs,
                        previewStamp: string, launchStamp: string, runner: seq<string> -> ProcResult)
    ensures var r := Run(store, state, settings, imageOption, dryRun, profileArg, args, fs, previewStamp, launchStamp, runner);
      && |r.calls| <= 1
      && (|r.calls| == 1 ==> |r.calls[0]| > 0 && r.calls[0][|r.calls[0]| - 1] == ImageFor(settings, imageOption))
      && (!dryRun && r.result.Ok? ==> |r.calls| == 1 && runner(r.calls[0]).exitCode == 0)
      && (|r.calls| == 1 && runner(r.calls[0]).exitCode == 0 ==> r.result.Ok?)
  {
    var resolvedRun := ResolveProfileForRun(store, state.lastProfile, Requested(profileArg));
    if resolvedRun.Ok? {
      var (resolved, name, created) := resolvedRun.value;
      var image := ImageFor(settings, imageOption);
      var r := RunResolved(resolved, state, settings, image, dryRun, name, created, args, fs, previewStamp, launchStamp, runner);
      assert Run(store, state, settings, imageOption, dryRun, profileArg, args, fs, previewStamp, launchStamp, runner) == r;
    }
  }

  /** `run -` is `run` without a profile. */
  lemma RunDashIsNoProfile(store: Store, state: State, settings: Settings, imageOption: Option<string>, dryRun: bool,
                           args: seq<string>, fs: Fs, previewStamp: string, launchStamp: string, runner: seq<string> -> ProcResult)
    ensures Run(store, state, settings, imageOption, dryRun, Some("-"), args, fs, previewStamp, launchStamp, runner)
         == Run(store, state, settings, imageOption, dryRun, None, args, fs, previewStamp, launchStamp, runner)
  {
  }

  /** A named profile that does not exist stops `run` before anything is
      created, echoed, launched or remembered. */
  lemma RunMissingProfile(store: Store, state: State, settings: Settings, imageOption: Option<string>, dryRun: bool,
                          profile: string, args: seq<string>, fs: Fs,
                          previewStamp: string, launchStamp: string, runner: seq<string> -> ProcResult)
    requires ValidName(profile) && profile !in store && profile != "-"
    ensures Run(store, state, settings, imageOption, dryRun, Some(profile), args, fs, previewStamp, launchStamp, runner)
         == RunOutcome(store, state, [], [], Err(ProfileNotFound(profile)))
  {
    assert Requested(Some(profile)) == Some(profile);
  }

  /** After a successful launch the remembered profile is the one a later
      `run` without a profile argument picks, unchanged and uncreated. */
  lemma RunRemembersProfile(store: Store, state: State, settings: Settings, imageOption: Option<string>,
                            profileArg: Option<string>, args: seq<string>, fs: Fs,
                            previewStamp: string, launchStamp: string, runner: seq<string> -> ProcResult)
    requires Run(store, state, settings, imageOption, false, profileArg, args, fs, previewStamp, launchStamp, runner).result.Ok?
    ensures var r := Run(store, state, settings, imageOption, false, profileArg, args, fs, previewStamp, launchStamp, runner);
      ResolveProfileForRun(r.store, r.state.lastProfile, None) == Ok((r.store, r.result.value, false))
  {
    var r := Run(store, state, settings, imageOption, false, profileArg, args, fs, previewStamp, launchStamp, runner);
    RunUsesRecordedDefault(r.store, r.result.value, None);
  }

  /** Read with the same clock, a dry run prints exactly the command a real
      run hands the runner. */
  lemma DryRunShowsLaunch(store: Store, state: State, settings: Settings, imageOption: Option<string>,
                          profileArg: Option<string>, args: seq<string>, fs: Fs,
                          stamp: string, runner: seq<string> -> ProcResult)
    requires Run(store, state, settings, imageOption, false, profileArg, args, fs, stamp, stamp, runner).calls != []
    ensures var dry := Run(store, state, settings, imageOption, true, profileArg, args, fs, stamp, stamp, runner);
      var launched := Run(store, state, settings, imageOption, false, profileArg, args, fs, stamp, stamp, runner);
      dry.output != [] && dry.output[|dry.output| - 1] == Join(launched.calls[0], ' ')
  {
    var res := ResolveProfileForRun(store, state.lastProfile, Requested(profileArg));
    assert res.Ok?;
    var (resolved, name, created) := res.value;
    var image := ImageFor(settings, imageOption);
    assert Run(store, state, settings, imageOption, true, profileArg, args, fs, stamp, stamp, runner)
        == RunResolved(resolved, state, settings, image, true, name, created, args, fs, stamp, stamp, runner);
    assert Run(store, state, settings, imageOption, false, profileArg, args, fs, stamp, stamp, runner)
        == RunResolved(resolved, state, settings, image, false, name, created, args, fs, stamp, stamp, runner);
    DryRunShowsLaunchResolved(resolved, state, settings, image, name, created, args, fs, stamp, runner);
  }

  lemma DryRunShowsLaunchResolved(store: Store, state: State, settings: Settings, image: string,
                                  name: string, created: bool, args: seq<string>, fs: Fs,
                                  stamp: string, runner: seq<string> -> ProcResult)
    requires RunResolved(store, state, settings, image, false, name, created, args, fs, stamp, stamp, runner).calls != []
    ensures var dry := RunResolved(store, state, settings, image, true, name, created, args, fs, stamp, stamp, runner);
      var launched := RunResolved(store, state, settings, image, false, name, created, args, fs, stamp, stamp, runner);
      dry.output != [] && dry.output[|dry.output| - 1] == Join(launched.calls[0], ' ')
  {
  }

  /** The state is saved last: only a launch that went through changes it,
      and then to the profile just used; a dry run launches nothing. */
  lemma RunSavesStateLast(store: Store, state: State, settings: Settings, imageOption: Option<string>, dryRun: bool,
                          profileArg: Option<string>, args: seq<string>, fs: Fs,
                          previewStamp: string, launchStamp: string, runner: seq<string> -> ProcResult)
    ensures var r := Run(store, state, settings, imageOption, dryRun, profileArg, args, fs, previewStamp, launchStamp, runner);
      && (dryRun ==> r.calls == [] && r.state == state)
      && (r.result.Err? ==> r.state == state)
      && (!dryRun && r.result.Ok? ==> r.state == State(Some(r.result.value)))
      && (r.state != state ==> !dryRun && r.result.Ok? && runner(r.calls[0]).exitCode == 0)
  {
    var resolvedRun := ResolveProfileForRun(store, state.lastProfile, Requested(profileArg));
    if resolvedRun.Ok? {
      var (resolved, name, created) := resolvedRun.value;
      var image := ImageFor(settings, imageOption);
      var r := RunResolved(resolved, state, settings, image, dryRun, name, created, args, fs, previewStamp, launchStamp, runner);
      assert Run(store, state, settings, imageOption, dryRun, profileArg, args, fs, previewStamp, launchStamp, runner) == r;
    }
  }
}

=== FILE: docker.dfy ===
/**
 * The container runtime side: the fixed launch policy, the argument vector
 * for one launch, and the two runtime queries behind `proxy reload`. The
 * process runner is a parameter; every operation reports the argument
 * vectors it handed to the runner, in order.
 */
module Docker {
  import opened Errors
  import opened Text
  import opened Paths
  import opened Volumes

  /** `BASE_RUN_ARGS`: ephemeral interactive container, every capability
      dropped and seven added back, fixed resolvers, proxy environment, and
      the persistent credentials volume. */
  const BaseRunArgs: seq<string> := [
    "docker", "run", "--rm", "-it",
    "--cap-drop", "ALL",
    "--cap-add", "NET_ADMIN",
    "--cap-add", "SETPCAP",
    "--cap-add", "SETUID",
    "--cap-add", "SETGID",
    "--cap-add", "AUDIT_WRITE",
    "--cap-add", "DAC_OVERRIDE",
    "--cap-add", "CHOWN",
    "--dns", "1.1.1.1",
    "--dns", "9.9.9.9",
    "-e", "HTTP_PROXY=http://127.0.0.1:8888",
    "-e", "HTTPS_PROXY=http://127.0.0.1:8888",
    "-e", "NO_PROXY=localhost,127.0.0.1",
    "-e", "CLAUDE_CONFIG_DIR=/home/llm/.persist/claude",
    "-e", "CODEX_HOME=/home/llm/.persist/codex",
    "-v", "llm_persist:/home/llm/.persist"
  ]

  /** The capability policy: all capabilities are dropped before any is
      added back. */
  lemma BaseRunArgsPolicy()
    ensures |BaseRunArgs| == 36
    ensures BaseRunArgs[4] == "--cap-drop" && BaseRunArgs[5] == "ALL"
    ensures forall i, j ::
      (0 <= i < |BaseRunArgs| && 0 <= j < |BaseRunArgs| && BaseRunArgs[i] == "--cap-drop" && BaseRunArgs[j] == "--cap-add") ==> i < j
  {
    CapDropOnlyAtFour();
    CapAddPositions();
    forall i, j | 0 <= i < |BaseRunArgs| && 0 <= j < |BaseRunArgs| && BaseRunArgs[i] == "--cap-drop" && BaseRunArgs[j] == "--cap-add"
      ensures i < j
    {
      assert i in (set k | 0 <= k < |BaseRunArgs| && BaseRunArgs[k] == "--cap-drop");
      assert j in (set k | 0 <= k < |BaseRunArgs| && BaseRunArgs[k] == "--cap-add");
    }
  }

  /** Exactly seven capabilities are added back. */
  lemma CapAddCount()
    ensures |set i | 0 <= i < |BaseRunArgs| && BaseRunArgs[i] == "--cap-add"| == 7
  {
    CapAddPositions();
    assert |{6, 8, 10, 12, 14, 16, 18}| == 7;
  }

  lemma CapDropOnlyAtFour()
    ensures (set i | 0 <= i < |BaseRunArgs| && BaseRunArgs[i] == "--cap-drop") == {4}
  {
  }

  lemma CapAddPositions()
    ensures (set i | 0 <= i < |BaseRunArgs| && BaseRunArgs[i] == "--cap-add") == {6, 8, 10, 12, 14, 16, 18}
  {
  }

  /** What the runner reports for one process. */
  datatype ProcResult = ProcResult(exitCode: int, stdout: string, stderr: string)

  /** The results of a computation that invoked the runner, with the argument
      vectors it was invoked on. */
  datatype Exec<T> = Exec(calls: seq<seq<string>>, result: Result<T>)

  /** The argument vector of a launch and the container's name. */
  datatype Launch = Launch(command: seq<string>, name: string)

  /** The label that marks a container as belonging to a profile. */
  function ProfileLabel(profile: string): string
  {
    "llmbox.profile=" + profile
  }

  /** `config_dir / "proxy_blocklist"`. */
  function BlocklistPath(configDir: Path): Path
  {
    JoinPath(configDir, PurePath("proxy_blocklist"))
  }

  /** Where the blocklist appears inside the container, read-only. */
  const BlocklistTarget: string := ":/etc/tinyproxy/blocklist:ro"

  /** The read-only mount of the egress blocklist. */
  function BlocklistMount(configDir: Path): string
  {
    Render(BlocklistPath(configDir)) + BlocklistTarget
  }

  /** One `-v <spec>` pair per mount, in stored order. */
  function VolumeArgs(volumes: seq<VolumeMount>): (r: seq<string>)
    ensures |r| == 2 * |volumes|
    ensures forall i :: 0 <= i < |volumes| ==> r[2 * i] == "-v" && r[2 * i + 1] == volumes[i].Spec()
  {
    if |volumes| == 0 then []
    else
      var init := volumes[..|volumes| - 1];
      var before := VolumeArgs(init);
      VolumeArgsAppend(before, volumes);
      before + ["-v", volumes[|volumes| - 1].Spec()]
  }

  lemma VolumeArgsAppend(before: seq<string>, volumes: seq<VolumeMount>)
    requires |volumes| > 0 && |before| == 2 * (|volumes| - 1)
    requires forall i :: 0 <= i < |volumes| - 1 ==>
      before[2 * i] == "-v" && before[2 * i + 1] == volumes[..|volumes| - 1][i].Spec()
    ensures var r := before + ["-v", volumes[|volumes| - 1].Spec()];
      forall i :: 0 <= i < |volumes| ==> r[2 * i] == "-v" && r[2 * i + 1] == volumes[i].Spec()
  {
    var r := before + ["-v", volumes[|volumes| - 1].Spec()];
    forall i | 0 <= i < |volumes|
      ensures r[2 * i] == "-v" && r[2 * i + 1] == volumes[i].Spec()
    {
      if i < |volumes| - 1 {
        assert volumes[..|volumes| - 1][i] == volumes[i];
        assert r[2 * i] == before[2 * i] && r[2 * i + 1] == before[2 * i + 1];
      }
    }
  }

  /** The label every container the tool launches carries. */
  const ManagedLabel: string := "llmbox.managed=true"

  /** The identity part of a launch: container name and the two labels. */
  function IdentityArgs(profile: string, name: string): (r: seq<string>)
  {
    ["--name", name, "--label", ManagedLabel, "--label", ProfileLabel(profile)]
  }

  /** `build_run_command` with the clock reading passed in. */
  function BuildRunCommand(image: string, profile: string, volumes: seq<VolumeMount>, extraArgs: seq<string>,
                           configDir: Path, timestamp: string): (r: Launch)
    ensures r.name == "llmbox-" + profile + "-" + timestamp
    ensures |r.command| == |BaseRunArgs| + 6 + 2 * |volumes| + 2 + |extraArgs| + 1
    ensures r.command[|r.command| - 1] == image
  {
    var name := "llmbox-" + profile + "-" + timestamp;
    var command := BaseRunArgs + IdentityArgs(profile, name) + VolumeArgs(volumes)
                   + ["-v", BlocklistMount(configDir)] + extraArgs + [image];
    Launch(command, name)
  }

  /** Whether `command` is laid out as a launch: `base`, the name and the
      two labels, one `-v` pair per mount in stored order, the blocklist
      mount, the extra arguments verbatim, and the image last. */
  predicate LaidOut(command: seq<string>, base: seq<string>, profile: string, name: string,
                    volumes: seq<VolumeMount>, blocklist: string, extraArgs: seq<string>, image: string)
  {
    var n := |base|;
    var m := n + 6 + 2 * |volumes|;
    && |command| == m + 2 + |extraArgs| + 1
    && command[..n] == base
    && command[n..n + 6] == ["--name", name, "--label", ManagedLabel, "--label", ProfileLabel(profile)]
    && command[n + 6..m] == VolumeArgs(volumes)
    && command[m..m + 2] == ["-v", blocklist]
    && command[m + 2..|command| - 1] == extraArgs
    && command[|command| - 1] == image
  }

  /** A slice inside the front part of a concatenation is a slice of that
      part. */
  lemma SliceInFront(front: seq<string>, back: seq<string>, i: nat, j: nat)
    requires i <= j <= |front|
    ensures (front + back)[i..j] == front[i..j]
  {
  }

  lemma ConcatLaidOut(base: seq<string>, profile: string, name: string, volumes: seq<VolumeMount>,
                      blocklist: string, extraArgs: seq<string>, image: string)
    ensures LaidOut(base + IdentityArgs(profile, name) + VolumeArgs(volumes) + ["-v", blocklist] + extraArgs + [image],
                    base, profile, name, volumes, blocklist, extraArgs, image)
  {
    var front := base + IdentityArgs(profile, name) + VolumeArgs(volumes);
    FrontLaidOut(base, IdentityArgs(profile, name), VolumeArgs(volumes), ["-v", blocklist] + extraArgs + [image]);
    BackLaidOut(front, ["-v", blocklist], extraArgs, image);
    assert front + ["-v", blocklist] + extraArgs + [image] == front + (["-v", blocklist] + extraArgs + [image]);
  }

  /** The three parts in front of a suffix keep their places. */
  lemma FrontLaidOut(a: seq<string>, b: seq<string>, c: seq<string>, back: seq<string>)
    ensures var s := a + b + c + back;
      && s[..|a|] == a
      && s[|a|..|a| + |b|] == b
      && s[|a| + |b|..|a| + |b| + |c|] == c
  {
    var ab := a + b;
    var abc := ab + c;
    assert ab[..|a|] == a && ab[|a|..] == b && abc[|ab|..] == c;
    SliceInFront(ab, c, 0, |a|);
    SliceInFront(ab, c, |a|, |ab|);
    SliceInFront(abc, back, 0, |a|);
    SliceInFront(abc, back, |a|, |ab|);
    SliceInFront(abc, back, |ab|, |abc|);
  }

  /** The pair, the extra arguments and the last element behind a front
      part keep their places. */
  lemma BackLaidOut(front: seq<string>, pair: seq<string>, extra: seq<string>, last: string)
    requires |pair| == 2
    ensures var s := front + pair + extra + [last];
      var m := |front|;
      && s[m..m + 2] == pair
      && s[m + 2..|s| - 1] == extra
      && s[|s| - 1] == last
  {
    var p4 := front + pair;
    var p5 := p4 + extra;
    assert p4[|front|..] == pair && p5[|p4|..] == extra;
    SliceInFront(p4, extra, |front|, |p4|);
    SliceInFront(p5, [last], |front|, |p4|);
    SliceInFront(p5, [last], |p4|, |p5|);
  }

  /** The order of a launch command: the fixed policy, the name, the two
      labels, one `-v` pair per mount in stored order, the blocklist mount,
      the extra arguments verbatim, and the image last. */
  lemma RunCommandLayout(image: string, profile: string, volumes: seq<VolumeMount>, extraArgs: seq<string>,
                         configDir: Path, timestamp: string)
    ensures var r := BuildRunCommand(image, profile, volumes, extraArgs, configDir, timestamp);
      LaidOut(r.command, BaseRunArgs, profile, r.name, volumes, BlocklistMount(configDir), extraArgs, image)
  {
    var r := BuildRunCommand(image, profile, volumes, extraArgs, configDir, timestamp);
    var blocklist := BlocklistMount(configDir);
    assert r.command == BaseRunArgs + IdentityArgs(profile, r.name) + VolumeArgs(volumes) + ["-v", blocklist] + extraArgs + [image];
    ConcatLaidOut(BaseRunArgs, profile, r.name, volumes, blocklist, extraArgs, image);
  }

  /** The extra arguments cannot displace the image: the image is always
      the last element, and nothing in the fixed policy depends on the
      inputs. */
  lemma BuildRunCommandFixedPrefix(image: string, profile: string, volumes: seq<VolumeMount>, extraArgs: seq<string>,
                                   configDir: Path, timestamp: string,
                                   image': string, profile': string, volumes': seq<VolumeMount>, extraArgs': seq<string>,
                                   configDir': Path, timestamp': string)
    ensures BuildRunCommand(image, profile, volumes, extraArgs, configDir, timestamp).command[..|BaseRunArgs|]
         == BuildRunCommand(image', profile', volumes', extraArgs', configDir', timestamp').command[..|BaseRunArgs|]
  {
    RunCommandLayout(image, profile, volumes, extraArgs, configDir, timestamp);
    RunCommandLayout(image', profile', volumes', extraArgs', configDir', timestamp');
  }

  /** `run_container`: the built command goes to the runner once; a non-zero
      exit is an error (`check=True`). */
  function RunContainer(image: string, profile: string, volumes: seq<VolumeMount>, extraArgs: seq<string>,
                        configDir: Path, timestamp: string, runner: seq<string> -> ProcResult): (r: Exec<(string, seq<string>)>)
    ensures var launch := BuildRunCommand(image, profile, volumes, extraArgs, configDir, timestamp);
      && r.calls == [launch.command]
      && (r.result.Ok? <==> runner(launch.command).exitCode == 0)
      && (r.result.Ok? ==> r.result.value == (launch.name, launch.command))
      && (r.result.Err? ==> r.result.error == CommandFailed(runner(launch.command).exitCode))
  {
    var launch := BuildRunCommand(image, profile, volumes, extraArgs, configDir, timestamp);
    var outcome := runner(launch.command);
    if outcome.exitCode != 0 then Exec([launch.command], Err(CommandFailed(outcome.exitCode)))
    else Exec([launch.command], Ok((launch.name, launch.command)))
  }

  /** The `docker ps` query for a profile's containers. */
  function PsCommand(profile: string): seq<string>
  {
    ["docker", "ps", "--filter", "label=" + ProfileLabel(profile), "--format", "{{.ID}}"]
  }

  /** The query filters on exactly the label a launch of the profile carries. */
  lemma PsFindsLaunchedLabel(image: string, profile: string, volumes: seq<VolumeMount>, extraArgs: seq<string>,
                             configDir: Path, timestamp: string)
    ensures PsCommand(profile)[3] == "label=" + BuildRunCommand(image, profile, volumes, extraArgs, configDir, timestamp).command[|BaseRunArgs| + 5]
  {
  }

  /** The stripped, non-blank lines among `lines`, in order. */
  function NonBlank(lines: seq<string>): (r: seq<string>)
    ensures |r| <= |lines|
    ensures forall i :: 0 <= i < |r| ==> r[i] != "" && Strip(r[i]) == r[i]
  {
    if |lines| == 0 then []
    else
      var rest := NonBlank(lines[1..]);
      var line := Strip(lines[0]);
      if line == "" then rest
      else
        StripIdempotent(lines[0]);
        var r := [line] + rest;
        assert forall i :: 0 < i < |r| ==> r[i] == rest[i - 1];
        r
  }

  /** One step of the filter: the first line, stripped, is kept unless it
      is blank. */
  lemma NonBlankStep(lines: seq<string>)
    requires |lines| > 0
    ensures NonBlank(lines) == (if Strip(lines[0]) == "" then [] else [Strip(lines[0])]) + NonBlank(lines[1..])
  {
  }

  /** Every line that is not blank once stripped is listed, stripped. */
  lemma {:induction false} NonBlankKeeps(lines: seq<string>)
    ensures forall i :: 0 <= i < |lines| && Strip(lines[i]) != "" ==> Strip(lines[i]) in NonBlank(lines)
    decreases |lines|
  {
    if |lines| > 0 {
      var tail := lines[1..];
      NonBlankKeeps(tail);
      NonBlankStep(lines);
      forall i | 1 <= i < |lines| && Strip(lines[i]) != ""
        ensures Strip(lines[i]) in NonBlank(lines)
      {
        assert lines[i] == tail[i - 1];
      }
    }
  }

  /** Nothing but stripped lines of the input is listed. */
  lemma {:induction false} NonBlankOnlyLines(lines: seq<string>)
    ensures forall x :: x in NonBlank(lines) ==> exists i :: 0 <= i < |lines| && Strip(lines[i]) == x
    decreases |lines|
  {
    if |lines| > 0 {
      var tail := lines[1..];
      NonBlankOnlyLines(tail);
      NonBlankStep(lines);
      forall x | x in NonBlank(lines)
        ensures exists i :: 0 <= i < |lines| && Strip(lines[i]) == x
      {
        if x in NonBlank(tail) {
          var i :| 0 <= i < |tail| && Strip(tail[i]) == x;
          assert lines[i + 1] == tail[i];
        } else {
          assert Strip(lines[0]) == x;
        }
      }
    }
  }

  /** The filter keeps the order of the lines: the kept lines of a
      concatenation are those of each half, one after the other. */
  lemma {:induction false} NonBlankAppend(a: seq<string>, b: seq<string>)
    ensures NonBlank(a + b) == NonBlank(a) + NonBlank(b)
    decreases |a|
  {
    if |a| > 0 {
      assert (a + b)[1..] == a[1..] + b;
      NonBlankAppend(a[1..], b);
    } else {
      assert a + b == b;
    }
  }

  lemma StripIdempotent(s: string)
    ensures Strip(Strip(s)) == Strip(s)
  {
    StripUnchanged(Strip(s));
  }

  /** `[line.strip() for line in stdout.splitlines() if line.strip()]`.
      Splitting at every line-break character instead of treating `\r\n` as
      one break, and keeping a trailing empty piece, only adds blank pieces,
      which the filter drops. */
  function OutputLines(stdout: string): seq<string>
  {
    NonBlank(SplitWhere(stdout, IsLineBreak))
  }

  /** Container ids printed one per line come back exactly. */
  lemma OutputLinesOfIds(ids: seq<string>)
    requires forall i :: 0 <= i < |ids| ==> ids[i] != "" && Strip(ids[i]) == ids[i]
    requires forall i, j :: 0 <= i < |ids| && 0 <= j < |ids[i]| ==> !IsLineBreak(ids[i][j])
    ensures OutputLines(Join(ids, '\n')) == ids
  {
    if |ids| == 0 {
      OutputLinesOfNothing();
    } else {
      var lines := SplitWhere(Join(ids, '\n'), IsLineBreak);
      assert lines == ids by {
        SplitWhereOfJoin(ids, '\n', IsLineBreak);
      }
      NonBlankOfStripped(ids);
    }
  }

  /** Empty output lists no containers. */
  lemma OutputLinesOfNothing()
    ensures OutputLines(Join([], '\n')) == []
  {
    assert Join([], '\n') == "";
    assert SplitWhere("", IsLineBreak) == [""];
    assert Strip("") == "";
  }

  lemma {:induction false} NonBlankOfStripped(ids: seq<string>)
    requires forall i :: 0 <= i < |ids| ==> ids[i] != "" && Strip(ids[i]) == ids[i]
    ensures NonBlank(ids) == ids
    decreases |ids|
  {
    if |ids| > 0 {
      NonBlankOfStripped(ids[1..]);
      assert ids == [ids[0]] + ids[1..];
    }
  }

  /** `list_profile_containers`: one `docker ps`; a non-zero exit is an error
      carrying the stripped stderr, or a fixed message when that is empty. */
  function ListProfileContainers(profile: string, runner: seq<string> -> ProcResult): (r: Exec<seq<string>>)
    ensures r.calls == [PsCommand(profile)]
    ensures r.result.Ok? <==> runner(PsCommand(profile)).exitCode == 0
    ensures r.result.Ok? ==> forall i :: 0 <= i < |r.result.value| ==>
      r.result.value[i] != "" && Strip(r.result.value[i]) == r.result.value[i]
    ensures r.result.Ok? ==> r.result.value == OutputLines(runner(PsCommand(profile)).stdout)
    ensures r.result.Err? ==> r.result.error.ListContainersFailed? && r.result.error.message != ""
    ensures r.result.Err? && Strip(runner(PsCommand(profile)).stderr) != "" ==>
      r.result.error.message == Strip(runner(PsCommand(profile)).stderr)
  {
    var outcome := runner(PsCommand(profile));
    if outcome.exitCode != 0 then
      var message := Strip(outcome.stderr);
      Exec([PsCommand(profile)], Err(ListContainersFailed(if message != "" then message else "Failed to list containers")))
    else Exec([PsCommand(profile)], Ok(OutputLines(outcome.stdout)))
  }

  /** The shell line that sends the proxy process its reload signal. */
  const ReloadScript: string := "pid=\"$(cat /run/tinyproxy.pid)\" && runuser -u tinyproxy -- kill -USR1 \"$pid\""

  /** The command that makes the proxy in one container reload its blocklist. */
  function ExecCommand(container: string): seq<string>
  {
    ["docker", "exec", container, "sh", "-c", ReloadScript]
  }

  /** A container whose reload failed, with the stripped error text. */
  datatype Failure = Failure(container: string, detail: string)

  /** `(stderr or stdout or "").strip()`. */
  function Detail(outcome: ProcResult): string
  {
    Strip(if outcome.stderr != "" then outcome.stderr else outcome.stdout)
  }

  /** The containers named by a list of failures, in order. */
  function FailedIds(failures: seq<Failure>): (r: seq<string>)
    ensures |r| == |failures|
    ensures forall k :: 0 <= k < |failures| ==> r[k] == failures[k].container
  {
    if |failures| == 0 then [] else FailedIds(failures[..|failures| - 1]) + [failures[|failures| - 1].container]
  }

  /** The reload failures among `containers`, in order. */
  function Failures(containers: seq<string>, runner: seq<string> -> ProcResult): (r: seq<Failure>)
    ensures |r| <= |containers|
    decreases |containers|
  {
    if |containers| == 0 then []
    else
      var last := containers[|containers| - 1];
      var outcome := runner(ExecCommand(last));
      var before := Failures(containers[..|containers| - 1], runner);
      if outcome.exitCode != 0 then before + [Failure(last, Detail(outcome))] else before
  }

  /** The failures name exactly the containers whose signal exited non-zero,
      each with the detail of its own run. */
  lemma {:induction false} FailuresExact(containers: seq<string>, runner: seq<string> -> ProcResult)
    ensures forall c :: c in FailedIds(Failures(containers, runner)) <==>
      c in containers && runner(ExecCommand(c)).exitCode != 0
    ensures forall f :: f in Failures(containers, runner) ==> f.detail == Detail(runner(ExecCommand(f.container)))
    decreases |containers|
  {
    if |containers| > 0 {
      var init := containers[..|containers| - 1];
      var last := containers[|containers| - 1];
      FailuresExact(init, runner);
      assert containers == init + [last];
      var before := Failures(init, runner);
      if runner(ExecCommand(last)).exitCode != 0 {
        var r := before + [Failure(last, Detail(runner(ExecCommand(last))))];
        assert r[..|r| - 1] == before;
        assert FailedIds(r) == FailedIds(before) + [last];
      }
    }
  }

  /** The exec commands for `containers`, in order. */
  function ExecCommands(containers: seq<string>): (r: seq<seq<string>>)
    ensures |r| == |containers|
    ensures forall i :: 0 <= i < |containers| ==> r[i] == ExecCommand(containers[i])
  {
    if |containers| == 0 then [] else ExecCommands(containers[..|containers| - 1]) + [ExecCommand(containers[|containers| - 1])]
  }

  /** The loop of `reload_proxy`: signal each container once, in order,
      recording every failure and never stopping early. */
  method SignalAll(containers: seq<string>, runner: seq<string> -> ProcResult)
    returns (calls: seq<seq<string>>, failures: seq<Failure>)
    ensures calls == ExecCommands(containers)
    ensures failures == Failures(containers, runner)
  {
    calls := [];
    failures := [];
    var i := 0;
    while i < |containers|
      invariant 0 <= i <= |containers|
      invariant calls == ExecCommands(containers[..i])
      invariant failures == Failures(containers[..i], runner)
    {
      var command := ExecCommand(containers[i]);
      var outcome := runner(command);
      SignalStep(containers, i, runner);
      calls := calls + [command];
      if outcome.exitCode != 0 {
        failures := failures + [Failure(containers[i], Detail(outcome))];
      }
      i := i + 1;
    }
    assert containers[..i] == containers;
  }

  /** One more container extends the commands by its own and the failures
      by its own, if it failed. */
  lemma SignalStep(containers: seq<string>, i: nat, runner: seq<string> -> ProcResult)
    requires i < |containers|
    ensures ExecCommands(containers[..i + 1]) == ExecCommands(containers[..i]) + [ExecCommand(containers[i])]
    ensures Failures(containers[..i + 1], runner)
         == Failures(containers[..i], runner)
            + (if runner(ExecCommand(containers[i])).exitCode != 0
               then [Failure(containers[i], Detail(runner(ExecCommand(containers[i]))))] else [])
  {
    var prefix := containers[..i + 1];
    assert prefix[..i] == containers[..i];
    assert prefix[i] == containers[i];
  }

  /** `reload_proxy`: list the profile's containers, then signal each one;
      a listing error is passed on, and no containers means nothing to do. */
  method ReloadProxy(profile: string, runner: seq<string> -> ProcResult)
    returns (calls: seq<seq<string>>, result: Result<(seq<string>, seq<Failure>)>)
    ensures ListProfileContainers(profile, runner).result.Err? ==>
      calls == [PsCommand(profile)] && result == Err(ListProfileContainers(profile, runner).result.error)
    ensures ListProfileContainers(profile, runner).result.Ok? ==>
      var containers := ListProfileContainers(profile, runner).result.value;
      && result == Ok((containers, Failures(containers, runner)))
      && calls == [PsCommand(profile)] + ExecCommands(containers)
  {
    var listed := ListProfileContainers(profile, runner);
    calls := listed.calls;
    if listed.result.Err? {
      return calls, Err(listed.result.error);
    }
    var containers := listed.result.value;
    if |containers| == 0 {
      return calls, Ok(([], []));
    }
    var execs, failures := SignalAll(containers, runner);
    calls := calls + execs;
    result := Ok((containers, failures));
  }
}

=== FILE: errors.dfy ===
/**
 * The failure vocabulary shared by every module: an Option, a Result that
 * works with `:-`, and one Error datatype with a constructor for each way an
 * operation of the launcher refuses its input.
 */
module Errors {

  datatype Option<+T> = None | Some(value: T)

  /** Every exception the modelled operations raise, one constructor per cause. */
  datatype Error =
    // volumes.py
    | EmptyHostPart                       // VolumeError: spec has no host part
    | HostDoesNotExist(host: string)      // FileNotFoundError from parse_mount_spec
    | NoHomeDirectory                     // RuntimeError from Path.expanduser
    // profiles.py
    | NameHasBadCharacters(name: string)  // ValueError: pattern mismatch
    | NameIsAllDigits(name: string)       // ValueError: purely numeric name
    | ProfileNotFound(name: string)       // FileNotFoundError
    | ProfileAlreadyExists(name: string)  // FileExistsError
    | SameSourceAndDestination            // ValueError from copy
    | NotAMapping                         // ValueError: document is not a mapping
    | VolumesNotAList                     // TypeError from _parse_volumes
    | VolumeEntryNotString                // TypeError from _parse_volumes
    | UnknownField                        // validation error: a key other than "volumes"
    // cli.py
    | VolumeNumberOutOfRange(target: string)
    | VolumeNotFound(target: string)
    | ProfileNumberOutOfRange(token: string)
    | ProxyReloadFailed
    // docker.py
    | ListContainersFailed(message: string)  // RuntimeError from list_profile_containers
    | CommandFailed(exitCode: int)           // CalledProcessError from runner(..., check=True)

  datatype Result<+T> = Ok(value: T) | Err(error: Error) {

    predicate IsFailure() {
      Err?
    }

    function PropagateFailure<U>(): Result<U>
      requires Err?
    {
      Err(error)
    }

    function Extract(): T
      requires Ok?
    {
      value
    }
  }

  /** `[f(x) for x in xs]` where `f` may raise: the first failure, in list
      order, ends it. */
  function MapResult<A, B>(xs: seq<A>, f: A -> Result<B>): (r: Result<seq<B>>)
    ensures r.Ok? <==> forall k :: 0 <= k < |xs| ==> f(xs[k]).Ok?
    ensures r.Ok? ==> |r.value| == |xs| && forall k :: 0 <= k < |xs| ==> f(xs[k]) == Ok(r.value[k])
    ensures r.Err? ==> exists k :: 0 <= k < |xs| && f(xs[k]) == Err(r.error) && forall j :: 0 <= j < k ==> f(xs[j]).Ok?
    decreases |xs|
  {
    if |xs| == 0 then Ok([])
    else
      var init := xs[..|xs| - 1];
      assert forall k :: 0 <= k < |init| ==> init[k] == xs[k];
      var before :- MapResult(init, f);
      var last :- f(xs[|xs| - 1]);
      Ok(before + [last])
  }

  /** A failing prefix decides the result of the whole list. */
  lemma {:induction false} MapResultPrefixError<A, B>(xs: seq<A>, f: A -> Result<B>, k: nat)
    requires k <= |xs|
    requires MapResult(xs[..k], f).Err?
    ensures MapResult(xs, f) == MapResult(xs[..k], f)
    decreases |xs| - k
  {
    if k < |xs| {
      var init := xs[..|xs| - 1];
      assert init[..k] == xs[..k];
      MapResultPrefixError(init, f, k);
    } else {
      assert xs[..k] == xs;
    }
  }

  /** Extending a successful prefix by one element. */
  lemma MapResultStep<A, B>(xs: seq<A>, f: A -> Result<B>, k: nat)
    requires k < |xs|
    requires MapResult(xs[..k], f).Ok?
    ensures MapResult(xs[..k + 1], f) ==
      if f(xs[k]).Err? then Err(f(xs[k]).error) else Ok(MapResult(xs[..k], f).value + [f(xs[k]).value])
  {
    assert xs[..k + 1][..k] == xs[..k];
  }
}

=== FILE: paths.dfy ===
/**
 * POSIX paths the way pathlib and os.path see them: a root ("", "/" or the
 * POSIX-reserved "//") and the parts after it. Parsing drops empty and "."
 * parts, as pathlib does; `..` is kept until `os.path.normpath` folds it.
 */
module Paths {
  import opened Text

  datatype Root = Relative | Slash | DoubleSlash

  /** A pure (unresolved) path: `PurePosixPath(root, *segments)`. */
  datatype Path = Path(root: Root, segments: seq<string>)

  /** A part pathlib keeps: non-empty, no separator, not ".". */
  predicate IsSegment(s: string)
  {
    |s| > 0 && '/' !in s && s != "."
  }

  predicate WellFormed(p: Path)
  {
    forall i :: 0 <= i < |p.segments| ==> IsSegment(p.segments[i])
  }

  predicate IsAbsolute(p: Path)
  {
    p.root != Relative
  }

  /** Lexically normal: well formed; a rooted path has no `..`; in a relative
      path the `..` parts all come first. */
  predicate Normal(p: Path)
  {
    && WellFormed(p)
    && (p.root != Relative ==> forall i :: 0 <= i < |p.segments| ==> p.segments[i] != "..")
    && (p.root == Relative ==>
          forall i, j :: 0 <= i < j < |p.segments| && p.segments[j] == ".." ==> p.segments[i] == "..")
  }

  /** pathlib's split of the root: "//" survives only when not followed by a
      third slash. */
  function RootOf(s: string): Root
  {
    if |s| >= 2 && s[0] == '/' && s[1] == '/' && (|s| == 2 || s[2] != '/') then DoubleSlash
    else if |s| >= 1 && s[0] == '/' then Slash
    else Relative
  }

  function RootText(r: Root): string
  {
    match r
    case Relative => ""
    case Slash => "/"
    case DoubleSlash => "//"
  }

  /** The parts pathlib keeps out of a `/`-split string. */
  function Keep(parts: seq<string>): (r: seq<string>)
    requires forall i :: 0 <= i < |parts| ==> '/' !in parts[i]
    ensures forall i :: 0 <= i < |r| ==> IsSegment(r[i])
  {
    if |parts| == 0 then []
    else (if parts[0] == "" || parts[0] == "." then [] else [parts[0]]) + Keep(parts[1..])
  }

  /** `Path(s)`. */
  function PurePath(s: string): (p: Path)
    ensures WellFormed(p)
    ensures IsAbsolute(p) <==> |s| > 0 && s[0] == '/'
  {
    Path(RootOf(s), Keep(Split(s, '/')))
  }

  /** `str(p)`. */
  function Render(p: Path): string
  {
    if p.root == Relative && |p.segments| == 0 then "."
    else RootText(p.root) + Join(p.segments, '/')
  }

  /** `a / b`: an absolute right operand replaces the left one. */
  function JoinPath(a: Path, b: Path): (r: Path)
    ensures WellFormed(a) && WellFormed(b) ==> WellFormed(r)
    ensures IsAbsolute(r) <==> IsAbsolute(a) || IsAbsolute(b)
  {
    if b.root != Relative then b else Path(a.root, a.segments + b.segments)
  }

  /** `p.name`: the last part, or "" when there is none. */
  function Name(p: Path): string
  {
    if |p.segments| == 0 then "" else p.segments[|p.segments| - 1]
  }

  /** One step of `os.path.normpath`'s loop over the components. */
  function NormStep(root: Root, acc: seq<string>, seg: string): seq<string>
  {
    if seg == "" || seg == "." then acc
    else if seg != ".." || (root == Relative && |acc| == 0) || (|acc| > 0 && acc[|acc| - 1] == "..") then acc + [seg]
    else if |acc| > 0 then acc[..|acc| - 1]
    else acc
  }

  function NormSegments(root: Root, segs: seq<string>): seq<string>
    decreases |segs|
  {
    if |segs| == 0 then []
    else NormStep(root, NormSegments(root, segs[..|segs| - 1]), segs[|segs| - 1])
  }

  /** `os.path.normpath` on the parsed form of a path. */
  function NormPath(p: Path): Path
  {
    Path(p.root, NormSegments(p.root, p.segments))
  }

  /** `os.path.normpath(s)`: its rule for the leading slashes and its filter
      of empty and "." components are those of `PurePath`. */
  function NormPathText(s: string): string
  {
    Render(NormPath(PurePath(s)))
  }

  lemma {:induction false} KeepAppend(a: seq<string>, b: seq<string>)
    requires forall i :: 0 <= i < |a| ==> '/' !in a[i]
    requires forall i :: 0 <= i < |b| ==> '/' !in b[i]
    ensures Keep(a + b) == Keep(a) + Keep(b)
    decreases |a|
  {
    if |a| > 0 {
      var ab := a + b;
      assert ab[1..] == a[1..] + b;
      assert ab[0] == a[0];
      KeepAppend(a[1..], b);
    } else {
      assert a + b == b;
    }
  }

  lemma KeepSegments(segs: seq<string>)
    requires forall i :: 0 <= i < |segs| ==> IsSegment(segs[i]) && '/' !in segs[i]
    ensures Keep(segs) == segs
  {
  }

  /** The parts of a joined list of well-formed parts, with an optional
      leading run of separators, are those parts. */
  lemma {:induction false} KeepOfJoin(segs: seq<string>, lead: nat)
    requires forall i :: 0 <= i < |segs| ==> IsSegment(segs[i])
    ensures Keep(Split(seq(lead, _ => '/') + Join(segs, '/'), '/')) == segs
    decreases lead
  {
    var body := Join(segs, '/');
    if lead == 0 {
      assert seq(lead, _ => '/') + body == body;
      if |segs| == 0 {
        assert Split("", '/') == [""] by {
          SplitOfJoin([""], '/');
        }
      } else {
        SplitOfJoin(segs, '/');
        KeepSegments(segs);
      }
    } else {
      var rest := seq(lead - 1, _ => '/') + body;
      assert seq(lead, _ => '/') + body == ['/'] + rest;
      SplitOfLeadingSeparator(rest, '/');
      KeepOfJoin(segs, lead - 1);
      KeepAppend([""], Split(rest, '/'));
    }
  }

  /** A non-empty join of well-formed parts does not start with a slash. */
  lemma JoinHead(segs: seq<string>)
    requires |segs| > 0
    requires forall i :: 0 <= i < |segs| ==> IsSegment(segs[i])
    ensures |Join(segs, '/')| > 0 && Join(segs, '/')[0] != '/'
  {
    var body := Join(segs, '/');
    assert body == segs[0] || body == segs[0] + ['/'] + Join(segs[1..], '/');
    assert segs[0][0] != '/';
  }

  /** Parsing the string form of a well-formed path gives the path back. */
  lemma PurePathOfRender(p: Path)
    requires WellFormed(p)
    ensures PurePath(Render(p)) == p
  {
    var s := Render(p);
    var body := Join(p.segments, '/');
    if p.root == Relative && |p.segments| == 0 {
      assert s == ".";
      assert Split(".", '/') == ["."] by {
        SplitOfJoin(["."], '/');
      }
    } else {
      var lead := if p.root == Relative then 0 else if p.root == Slash then 1 else 2;
      assert s == seq(lead, _ => '/') + body;
      KeepOfJoin(p.segments, lead);
      if |p.segments| > 0 {
        JoinHead(p.segments);
      }
    }
  }

  /** A rooted path renders with a leading slash. */
  lemma RenderAbsolute(p: Path)
    requires IsAbsolute(p)
    ensures |Render(p)| > 0 && Render(p)[0] == '/'
  {
  }

  lemma {:induction false} NormSegmentsNormal(root: Root, segs: seq<string>)
    requires forall i :: 0 <= i < |segs| ==> IsSegment(segs[i]) || segs[i] == ""
    ensures Normal(Path(root, NormSegments(root, segs)))
    decreases |segs|
  {
    if |segs| > 0 {
      NormSegmentsNormal(root, segs[..|segs| - 1]);
    }
  }

  /** `normpath` yields a normal path with the same root. */
  lemma NormPathNormal(p: Path)
    requires WellFormed(p)
    ensures Normal(NormPath(p)) && NormPath(p).root == p.root
  {
    NormSegmentsNormal(p.root, p.segments);
  }

  /** On a normal path `normpath` changes nothing. */
  lemma {:induction false} NormPathOfNormal(p: Path)
    requires Normal(p)
    ensures NormPath(p) == p
    decreases |p.segments|
  {
    var segs := p.segments;
    if |segs| > 0 {
      var init := segs[..|segs| - 1];
      assert Normal(Path(p.root, init));
      NormPathOfNormal(Path(p.root, init));
      assert segs == init + [segs[|segs| - 1]];
    }
  }

  /** Normalising twice is normalising once. */
  lemma NormPathIdempotent(p: Path)
    requires WellFormed(p)
    ensures NormPath(NormPath(p)) == NormPath(p)
  {
    NormPathNormal(p);
    NormPathOfNormal(NormPath(p));
  }

  /** Appending parts that hold no `..` appends them to the normalised prefix. */
  lemma {:induction false} NormSegmentsAppend(root: Root, a: seq<string>, b: seq<string>)
    requires forall i :: 0 <= i < |b| ==> IsSegment(b[i]) && b[i] != ".."
    ensures NormSegments(root, a + b) == NormSegments(root, a) + b
    decreases |b|
  {
    if |b| == 0 {
      assert a + b == a;
    } else {
      var b' := b[..|b| - 1];
      NormSegmentsAppend(root, a, b');
      assert (a + b)[..|a + b| - 1] == a + b';
      assert (a + b)[|a + b| - 1] == b[|b| - 1];
      assert NormSegments(root, a) + b == NormSegments(root, a) + b' + [b[|b| - 1]];
    }
  }
}

=== FILE: profiles.dfy ===
/**
 * Profiles: the name rules, the decoding of a stored profile document, the
 * profile store with its error rules, and the choice of the profile `run`
 * uses when none is named.
 *
 * The profiles directory is a map from profile name (file stem) to the
 * document its YAML file holds; file-system effects are the map updates.
 */
module Profiles {
  import opened Errors
  import opened Text
  import opened Paths
  import opened Volumes

  /** A character of `[A-Za-z0-9._-]`. */
  predicate IsNameChar(c: char)
  {
    ('A' <= c <= 'Z') || ('a' <= c <= 'z') || ('0' <= c <= '9') || c == '.' || c == '_' || c == '-'
  }

  /** `PROFILE_PATTERN.fullmatch(name)`. */
  predicate MatchesPattern(name: string)
  {
    |name| > 0 && forall i :: 0 <= i < |name| ==> IsNameChar(name[i])
  }

  /** What a profile name is: pattern characters only, at least one of them
      not a digit. */
  predicate ValidName(name: string)
  {
    && |name| > 0
    && (forall i :: 0 <= i < |name| ==> IsNameChar(name[i]))
    && (exists i :: 0 <= i < |name| && !IsAsciiDigit(name[i]))
  }

  /** `validate_profile_name`: the name itself, or the reason it is refused. */
  function ValidateProfileName(name: string): (r: Result<string>)
    ensures r.Ok? <==> ValidName(name)
    ensures r.Ok? ==> r.value == name
    ensures r.Err? ==> r.error == (if MatchesPattern(name) then NameIsAllDigits(name) else NameHasBadCharacters(name))
  {
    if !MatchesPattern(name) then Err(NameHasBadCharacters(name))
    else if IsDigits(name) then Err(NameIsAllDigits(name))
    else Ok(name)
  }

  /** A document as `yaml.safe_load` returns it (string keys only). */
  datatype Yaml =
    | YNull
    | YBool(b: bool)
    | YInt(i: int)
    | YStr(s: string)
    | YList(items: seq<Yaml>)
    | YMap(fields: map<string, Yaml>)

  /** Python truthiness of a loaded document. */
  predicate Falsy(doc: Yaml)
  {
    match doc
    case YNull => true
    case YBool(b) => !b
    case YInt(i) => i == 0
    case YStr(s) => s == ""
    case YList(items) => items == []
    case YMap(fields) => fields == map[]
  }

  /** `ProfileData`: the ordered mounts of one profile. */
  datatype ProfileData = ProfileData(volumes: seq<VolumeMount>)

  const Empty := ProfileData([])

  /** The working directory stored specs are parsed against. */
  const FsRoot := Path(Slash, [])

  /** One list entry of `_parse_volumes`: a string spec parsed with missing
      hosts allowed, anything else refused. */
  function ParseEntry(item: Yaml, fs: Fs): (r: Result<VolumeMount>)
    ensures !item.YStr? ==> r == Err(VolumeEntryNotString)
    ensures item.YStr? ==> r == ParseMountSpec(item.s, FsRoot, true, fs)
    ensures !(r.Err? && r.error.HostDoesNotExist?)
    ensures r.Ok? ==> Placed(r.value)
  {
    if item.YStr? then ParseMountSpec(item.s, FsRoot, true, fs) else Err(VolumeEntryNotString)
  }

  function EntryParser(fs: Fs): Yaml -> Result<VolumeMount>
  {
    item => ParseEntry(item, fs)
  }

  /** The `_parse_volumes` loop over list entries: every entry must parse,
      and the first bad entry stops it with its own error. */
  function ParseEntries(items: seq<Yaml>, fs: Fs): (r: Result<seq<VolumeMount>>)
    ensures r.Ok? <==> forall i :: 0 <= i < |items| ==> ParseEntry(items[i], fs).Ok?
    ensures r.Ok? ==> |r.value| == |items|
    ensures r.Ok? ==> forall i :: 0 <= i < |items| ==> ParseEntry(items[i], fs) == Ok(r.value[i])
    ensures r.Err? ==>
      exists i :: 0 <= i < |items| && ParseEntry(items[i], fs) == Err(r.error)
        && forall j :: 0 <= j < i ==> ParseEntry(items[j], fs).Ok?
  {
    var parser := EntryParser(fs);
    var r := MapResult(items, parser);
    assert forall i :: 0 <= i < |items| ==> parser(items[i]) == ParseEntry(items[i], fs);
    r
  }

  /** `_parse_volumes`: null is no mounts, a list is parsed entry by entry,
      anything else is refused. */
  function ParseVolumes(value: Yaml, fs: Fs): (r: Result<seq<VolumeMount>>)
    ensures value == YNull ==> r == Ok([])
    ensures !value.YNull? && !value.YList? ==> r == Err(VolumesNotAList)
    ensures value.YList? ==> r == ParseEntries(value.items, fs)
  {
    match value
    case YNull => Ok([])
    case YList(items) => ParseEntries(items, fs)
    case _ => Err(VolumesNotAList)
  }

  /** `load` after the file is read: `safe_load(...) or {}`, a mapping check,
      then `ProfileData.model_validate` with unknown keys forbidden. */
  function Decode(doc: Yaml, fs: Fs): (r: Result<ProfileData>)
    ensures r.Ok? ==> forall i :: 0 <= i < |r.value.volumes| ==> Placed(r.value.volumes[i])
    ensures Falsy(doc) ==> r == Ok(Empty)
    ensures !Falsy(doc) && !doc.YMap? ==> r == Err(NotAMapping)
    ensures r.Ok? && doc.YMap? ==> doc.fields.Keys <= {"volumes"}
    ensures doc.YMap? && "volumes" in doc.fields && ParseVolumes(doc.fields["volumes"], fs).Err? ==>
      r == Err(ParseVolumes(doc.fields["volumes"], fs).error)
  {
    var loaded := if Falsy(doc) then YMap(map[]) else doc;
    if !loaded.YMap? then Err(NotAMapping)
    else
      var fields := loaded.fields;
      var volumes :- if "volumes" in fields then ParseVolumes(fields["volumes"], fs) else Ok([]);
      if fields.Keys - {"volumes"} != {} then Err(UnknownField)
      else Ok(ProfileData(volumes))
  }

  /** `_serialize_volumes`: each mount as its spec string, in order. */
  function Specs(volumes: seq<VolumeMount>): (r: seq<Yaml>)
    ensures |r| == |volumes|
    ensures forall i :: 0 <= i < |volumes| ==> r[i] == YStr(volumes[i].Spec())
  {
    if |volumes| == 0 then [] else [YStr(volumes[0].Spec())] + Specs(volumes[1..])
  }

  /** `model_dump()` of a profile. */
  function Encode(data: ProfileData): Yaml
  {
    YMap(map["volumes" := YList(Specs(data.volumes))])
  }

  /** A profile whose mounts are as the parser leaves them, whose hosts hold
      no colon and which `resolve` fixes, is stored without loss. */
  predicate Storable(data: ProfileData, fs: Fs)
  {
    forall i :: 0 <= i < |data.volumes| ==>
      && Placed(data.volumes[i])
      && ':' !in Render(data.volumes[i].host)
      && fs.resolve(data.volumes[i].host) == data.volumes[i].host
  }

  /** Entries that each parse make the whole list parse, to exactly those
      mounts. */
  lemma ParseEntriesAllOk(items: seq<Yaml>, volumes: seq<VolumeMount>, fs: Fs)
    requires |items| == |volumes|
    requires forall i :: 0 <= i < |items| ==> ParseEntry(items[i], fs) == Ok(volumes[i])
    ensures ParseEntries(items, fs) == Ok(volumes)
  {
    var r := ParseEntries(items, fs);
    assert r.Ok?;
    forall i | 0 <= i < |items|
      ensures r.value[i] == volumes[i]
    {
      assert Ok(r.value[i]) == ParseEntry(items[i], fs) == Ok(volumes[i]);
    }
    assert r.value == volumes;
  }

  /** Re-parsing the specs of storable mounts gives the mounts back. */
  lemma ParseEntriesOfSpecs(volumes: seq<VolumeMount>, fs: Fs)
    requires Storable(ProfileData(volumes), fs)
    ensures ParseEntries(Specs(volumes), fs) == Ok(volumes)
  {
    var items := Specs(volumes);
    forall i | 0 <= i < |volumes|
      ensures ParseEntry(items[i], fs) == Ok(volumes[i])
    {
      SpecRoundTrip(volumes[i], fs);
    }
    ParseEntriesAllOk(items, volumes, fs);
  }

  /** Storage round trip: decoding what was saved gives the profile back. */
  lemma DecodeEncode(data: ProfileData, fs: Fs)
    requires Storable(data, fs)
    ensures Decode(Encode(data), fs) == Ok(data)
  {
    ParseEntriesOfSpecs(data.volumes, fs);
    var fields := map["volumes" := YList(Specs(data.volumes))];
    assert fields.Keys == {"volumes"};
    assert ParseVolumes(fields["volumes"], fs) == Ok(data.volumes);
    DecodeVolumesOnly(fields, fs);
  }

  /** A mapping holding only a parseable `volumes` entry decodes to those
      mounts. */
  lemma DecodeVolumesOnly(fields: map<string, Yaml>, fs: Fs)
    requires "volumes" in fields && fields.Keys == {"volumes"}
    requires ParseVolumes(fields["volumes"], fs).Ok?
    ensures Decode(YMap(fields), fs) == Ok(ProfileData(ParseVolumes(fields["volumes"], fs).value))
  {
    assert !Falsy(YMap(fields));
    assert fields.Keys - {"volumes"} == {};
  }

  /** The profiles directory: name to stored document. */
  type Store = map<string, Yaml>

  /** `list_profiles`: the stored names, sorted. */
  function ListProfiles(store: Store): (r: seq<string>)
    ensures |r| == |store|
    ensures forall x :: x in r <==> x in store
    ensures SortedStrictly(r)
  {
    SortedList(store.Keys)
  }

  /** `exists`: validates the name, then looks it up. */
  function Exists(store: Store, name: string): (r: Result<bool>)
    ensures r.Ok? <==> ValidName(name)
    ensures r.Ok? ==> (r.value <==> name in store)
  {
    var _ :- ValidateProfileName(name);
    Ok(name in store)
  }

  /** `load`. */
  function Load(store: Store, name: string, fs: Fs): (r: Result<ProfileData>)
    ensures ValidName(name) && name !in store ==> r == Err(ProfileNotFound(name))
    ensures r.Ok? ==> ValidName(name) && name in store && Decode(store[name], fs) == r
    ensures ValidName(name) && name in store ==> r == Decode(store[name], fs)
  {
    var _ :- ValidateProfileName(name);
    if name !in store then Err(ProfileNotFound(name))
    else Decode(store[name], fs)
  }

  /** `save`. */
  function Save(store: Store, name: string, data: ProfileData): (r: Result<Store>)
    ensures r.Ok? <==> ValidName(name)
    ensures r.Ok? ==> r.value.Keys == store.Keys + {name}
    ensures r.Ok? ==> r.value[name] == Encode(data)
    ensures r.Ok? ==> forall n :: n in store && n != name ==> r.value[n] == store[n]
  {
    var _ :- ValidateProfileName(name);
    Ok(store[name := Encode(data)])
  }

  /** `create`: refuses an existing name, otherwise stores an empty profile. */
  function Create(store: Store, name: string): (r: Result<(Store, ProfileData)>)
    ensures r.Ok? <==> ValidName(name) && name !in store
    ensures ValidName(name) && name in store ==> r == Err(ProfileAlreadyExists(name))
    ensures r.Ok? ==> r.value == (store[name := Encode(Empty)], Empty)
  {
    var _ :- ValidateProfileName(name);
    if name in store then Err(ProfileAlreadyExists(name))
    else Ok((store[name := Encode(Empty)], Empty))
  }

  /** `ensure`: load the profile if it exists, create it otherwise. */
  function Ensure(store: Store, name: string, fs: Fs): (r: Result<(Store, ProfileData, bool)>)
    ensures r.Ok? ==> ValidName(name)
    ensures r.Ok? ==> (r.value.2 <==> name !in store)
    ensures r.Ok? && !r.value.2 ==> r.value.0 == store && Load(store, name, fs) == Ok(r.value.1)
    ensures r.Ok? && r.value.2 ==> r.value.0 == store[name := Encode(Empty)] && r.value.1 == Empty
    ensures ValidName(name) && name !in store ==> r.Ok?
    ensures !ValidName(name) ==> r == Err(ValidateProfileName(name).error)
    ensures ValidName(name) && name in store && Load(store, name, fs).Ok? ==>
      r == Ok((store, Load(store, name, fs).value, false))
    ensures ValidName(name) && name in store && Load(store, name, fs).Err? ==>
      r == Err(Load(store, name, fs).error)
  {
    var present :- Exists(store, name);
    if present then
      var data :- Load(store, name, fs);
      Ok((store, data, false))
    else
      var created := Create(store, name);
      Ok((created.value.0, created.value.1, true))
  }

  /** The effect of an operation that may stop part-way: the store as left
      behind, and whether it finished. */
  datatype Partial = Partial(store: Store, outcome: Result<bool>)

  /** `delete`: removes the names in order and stops at the first invalid or
      missing one, keeping the removals already made. */
  function Delete(store: Store, names: seq<string>): (r: Partial)
    ensures r.outcome.Ok? ==> r.store == store - set i | 0 <= i < |names| :: names[i]
    ensures r.outcome.Ok? ==> forall i :: 0 <= i < |names| ==> ValidName(names[i]) && names[i] in store
    ensures r.outcome.Ok? ==> forall i, j :: 0 <= i < j < |names| ==> names[i] != names[j]
    ensures r.outcome.Err? ==> exists k :: 0 <= k < |names| && StopsAt(store, names, k, r)
    decreases |names|
  {
    if |names| == 0 then Partial(store, Ok(true))
    else
      var name := names[0];
      assert Before(names, 0) == {};
      match ValidateProfileName(name)
      case Err(e) =>
        assert StopsAt(store, names, 0, Partial(store, Err(e)));
        Partial(store, Err(e))
      case Ok(_) =>
        if name !in store then
          assert StopsAt(store, names, 0, Partial(store, Err(ProfileNotFound(name))));
          Partial(store, Err(ProfileNotFound(name)))
        else
          var rest := Delete(store - {name}, names[1..]);
          if rest.outcome.Err? then
            var k :| 0 <= k < |names[1..]| && StopsAt(store - {name}, names[1..], k, rest);
            StopsAtShift(store, names, k, rest);
            rest
          else
            BeforeShift(names, |names| - 1);
            assert forall i :: 1 <= i < |names| ==> names[i] == names[1..][i - 1];
            rest
  }

  /** The converse of `Delete`'s success condition: distinct, valid names
      that are all present are all deleted. */
  lemma {:induction false} DeleteSucceeds(store: Store, names: seq<string>)
    requires forall i :: 0 <= i < |names| ==> ValidName(names[i]) && names[i] in store
    requires forall i, j :: 0 <= i < j < |names| ==> names[i] != names[j]
    ensures Delete(store, names).outcome.Ok?
    decreases |names|
  {
    if |names| > 0 {
      var rest := names[1..];
      forall i | 0 <= i < |rest|
        ensures ValidName(rest[i]) && rest[i] in store - {names[0]}
      {
        assert rest[i] == names[i + 1];
      }
      forall i, j | 0 <= i < j < |rest|
        ensures rest[i] != rest[j]
      {
        assert rest[i] == names[i + 1] && rest[j] == names[j + 1];
      }
      DeleteSucceeds(store - {names[0]}, rest);
    }
  }

  /** Deleting one present profile removes exactly that profile. */
  lemma DeleteOne(store: Store, name: string)
    requires ValidName(name) && name in store
    ensures Delete(store, [name]) == Partial(store - {name}, Ok(true))
  {
    DeleteSucceeds(store, [name]);
    assert (set k | 0 <= k < |[name]| :: [name][k]) == {name} by {
      assert [name][0] == name;
    }
  }

  /** The names before `k + 1` are the first name and those before `k` in
      the rest. */
  lemma BeforeShift(names: seq<string>, k: nat)
    requires k < |names|
    ensures Before(names, k + 1) == {names[0]} + Before(names[1..], k)
  {
    forall x | x in Before(names, k + 1)
      ensures x in {names[0]} + Before(names[1..], k)
    {
      var i :| 0 <= i < k + 1 && names[i] == x;
      if i > 0 {
        assert names[1..][i - 1] == x;
      }
    }
    forall x | x in Before(names[1..], k)
      ensures x in Before(names, k + 1)
    {
      var i :| 0 <= i < k && names[1..][i] == x;
      assert names[i + 1] == x;
    }
  }

  /** A stop in the rest, after the first name was removed, is a stop one
      position later in the whole list. */
  lemma StopsAtShift(store: Store, names: seq<string>, k: nat, rest: Partial)
    requires 0 <= k < |names| - 1
    requires ValidName(names[0]) && names[0] in store
    requires StopsAt(store - {names[0]}, names[1..], k, rest)
    ensures StopsAt(store, names, k + 1, rest)
  {
    assert Before(names, 0) == {};
    forall j | 1 <= j < k + 1
      ensures ValidName(names[j]) && names[j] in store - Before(names, j)
    {
      BeforeShift(names, j - 1);
      assert names[j] == names[1..][j - 1];
    }
    BeforeShift(names, k);
    assert names[k + 1] == names[1..][k];
    assert store - Before(names, k + 1) == store - {names[0]} - Before(names[1..], k);
  }

  /** A failed `Delete` is pinned down by its contract: there is only one
      position it can have stopped at, and one result it can leave. */
  lemma StopsAtUnique(store: Store, names: seq<string>, k1: nat, k2: nat, r1: Partial, r2: Partial)
    requires k1 < |names| && k2 < |names|
    requires StopsAt(store, names, k1, r1) && StopsAt(store, names, k2, r2)
    ensures k1 == k2 && r1 == r2
  {
  }

  /** The names before position `k`. */
  function Before(names: seq<string>, k: nat): set<string>
    requires k <= |names|
  {
    set i | 0 <= i < k :: names[i]
  }

  /** `Delete` stopped at `names[k]`: every name before it was valid and
      still present when its turn came, so it is gone, and `names[k]` is the
      first name that was invalid or no longer present. */
  predicate StopsAt(store: Store, names: seq<string>, k: nat, r: Partial)
    requires k < |names|
  {
    var before := Before(names, k);
    && (forall j :: 0 <= j < k ==> ValidName(names[j]) && names[j] in store - Before(names, j))
    && r.store == store - before
    && r.outcome.Err?
    && (if !ValidName(names[k]) then r.outcome == Err(ValidateProfileName(names[k]).error)
        else names[k] !in store - before && r.outcome == Err(ProfileNotFound(names[k])))
  }

  /** `rename`: `old` must exist and `new` must not; the document moves. */
  function Rename(store: Store, oldName: string, newName: string): (r: Result<Store>)
    ensures r.Ok? <==> ValidName(oldName) && oldName in store && ValidName(newName) && newName !in store
    ensures ValidName(oldName) && oldName !in store ==> r == Err(ProfileNotFound(oldName))
    ensures ValidName(oldName) && oldName in store && ValidName(newName) && newName in store ==> r == Err(ProfileAlreadyExists(newName))
    ensures r.Ok? ==> r.value.Keys == store.Keys - {oldName} + {newName}
    ensures r.Ok? ==> r.value[newName] == store[oldName]
    ensures r.Ok? ==> forall n :: n in store && n != oldName ==> r.value[n] == store[n]
  {
    var _ :- ValidateProfileName(oldName);
    if oldName !in store then Err(ProfileNotFound(oldName))
    else
      var _ :- ValidateProfileName(newName);
      if newName in store then Err(ProfileAlreadyExists(newName))
      else Ok((store - {oldName})[newName := store[oldName]])
  }

  /** Renaming a profile onto itself fails: it already exists. */
  lemma RenameToSelfFails(store: Store, name: string)
    ensures Rename(store, name, name).Err?
  {
  }

  /** `copy`: source and destination must differ, the source must load and
      the destination must not exist; the source is left as it was. */
  function Copy(store: Store, source: string, destination: string, fs: Fs): (r: Result<Store>)
    ensures source == destination ==> r == Err(SameSourceAndDestination)
    ensures r.Ok? ==> source != destination && source in store && destination !in store
    ensures r.Ok? ==> ValidName(source) && ValidName(destination)
    ensures r.Ok? ==> r.value.Keys == store.Keys + {destination}
    ensures r.Ok? ==> forall n :: n in store ==> r.value[n] == store[n]
    ensures r.Ok? ==> Load(store, source, fs).Ok? && r.value[destination] == Encode(Load(store, source, fs).value)
    ensures source != destination && Load(store, source, fs).Ok? && ValidName(destination) && destination !in store ==> r.Ok?
    ensures source != destination && Load(store, source, fs).Ok? && ValidName(destination) && destination in store
      ==> r == Err(ProfileAlreadyExists(destination))
    ensures source != destination && Load(store, source, fs).Err? ==> r == Err(Load(store, source, fs).error)
  {
    if source == destination then Err(SameSourceAndDestination)
    else
      var data :- Load(store, source, fs);
      var _ :- ValidateProfileName(destination);
      if destination in store then Err(ProfileAlreadyExists(destination))
      else Save(store, destination, data)
  }

  /** What a copy holds: the destination loads as the source did, provided
      the source's mounts survive storage. */
  lemma CopyLoadsAsSource(store: Store, source: string, destination: string, fs: Fs)
    requires Copy(store, source, destination, fs).Ok?
    requires Storable(Load(store, source, fs).value, fs)
    ensures Load(Copy(store, source, destination, fs).value, destination, fs) == Load(store, source, fs)
    ensures Load(Copy(store, source, destination, fs).value, source, fs) == Load(store, source, fs)
  {
    DecodeEncode(Load(store, source, fs).value, fs);
  }

  /** `choose_existing_default`: the recorded name if it is set and listed,
      else the only profile, else nothing. */
  function ChooseExistingDefault(profiles: seq<string>, last: Option<string>): (r: Option<string>)
    ensures r.Some? ==> r.value in profiles
    ensures last.Some? && last.value != "" && last.value in profiles ==> r == last
    ensures r.None? <==> (last.None? || last.value == "" || last.value !in profiles) && |profiles| != 1
    ensures r.Some? && r != last ==> r == Some(profiles[0]) && |profiles| == 1
  {
    if last.Some? && last.value != "" && last.value in profiles then last
    else if |profiles| == 1 then Some(profiles[0])
    else None
  }

  /** The profile `run` falls back to. */
  const DefaultProfile := "default"

  lemma DefaultProfileValid()
    ensures ValidName(DefaultProfile)
  {
    assert !IsAsciiDigit(DefaultProfile[0]);
  }

  /** `resolve_profile_for_run`: the profile `run` uses and whether it was
      created for the purpose, with the store as left behind. */
  function ResolveProfileForRun(store: Store, last: Option<string>, requested: Option<string>): (r: Result<(Store, string, bool)>)
    ensures requested.Some? && requested.value != "" ==>
      (r.Ok? <==> ValidName(requested.value) && requested.value in store)
    ensures requested.Some? && requested.value != "" && r.Ok? ==> r.value == (store, requested.value, false)
    ensures requested.None? || requested.value == "" ==> r.Ok?
    ensures r.Ok? ==> r.value.1 in r.value.0
    ensures r.Ok? ==> (r.value.2 <==> r.value.1 !in store)
    ensures r.Ok? && r.value.2 ==> r.value.1 == "default" && r.value.0 == store[r.value.1 := Encode(Empty)]
    ensures r.Ok? && !r.value.2 ==> r.value.0 == store
  {
    if requested.Some? && requested.value != "" then
      var profile :- ValidateProfileName(requested.value);
      if !Exists(store, profile).value then Err(ProfileNotFound(profile))
      else Ok((store, profile, false))
    else
      var profiles := ListProfiles(store);
      var chosen := ChooseExistingDefault(profiles, last);
      if chosen.Some? && chosen.value != "" then Ok((store, chosen.value, false))
      else if |profiles| == 0 then
        DefaultProfileValid();
        Ok((Create(store, DefaultProfile).value.0, DefaultProfile, true))
      else if |profiles| == 1 then Ok((store, profiles[0], false))
      else if DefaultProfile !in profiles then
        DefaultProfileValid();
        Ok((Create(store, DefaultProfile).value.0, DefaultProfile, true))
      else Ok((store, DefaultProfile, false))
  }

  /** Without a request, `run` uses the existing default whenever there is
      one, and `default` otherwise. */
  lemma RunUsesExistingDefault(store: Store, last: Option<string>)
    ensures var chosen := ChooseExistingDefault(ListProfiles(store), last);
      var r := ResolveProfileForRun(store, last, None);
      && (chosen.Some? ==> r == Ok((store, chosen.value, false)))
      && (chosen.None? ==> r.Ok? && r.value.1 == DefaultProfile)
  {
    var profiles := ListProfiles(store);
    var chosen := ChooseExistingDefault(profiles, last);
    if chosen.Some? && chosen.value == "" {
      assert |profiles| == 1 && profiles[0] == "";
    }
  }

  /** No profiles and no request: `default` is created and used. */
  lemma RunWithNoProfilesCreatesDefault(last: Option<string>)
    ensures ResolveProfileForRun(map[], last, None) == Ok((map["default" := Encode(Empty)], "default", true))
  {
  }

  /** A recorded default that names a profile is used as it is. */
  lemma RunUsesRecordedDefault(store: Store, last: string, requested: Option<string>)
    requires last != "" && last in store
    requires requested.None? || requested == Some("")
    ensures ResolveProfileForRun(store, Some(last), requested) == Ok((store, last, false))
  {
  }

  /** With a single profile and no request, `run` uses it whatever was
      recorded. */
  lemma RunWithOneProfileUsesIt(store: Store, last: Option<string>)
    requires |store| == 1
    ensures ResolveProfileForRun(store, last, None) == Ok((store, ListProfiles(store)[0], false))
  {
    var profiles := ListProfiles(store);
    var chosen := ChooseExistingDefault(profiles, last);
    assert chosen.Some? && chosen.value == profiles[0] by {
      if last.Some? && last.value != "" && last.value in profiles {
        assert last.value == profiles[0];
      }
    }
  }

  /** With no usable default and at least two profiles, `default` is used,
      created exactly when it was absent. */
  lemma RunWithSeveralProfilesUsesDefault(store: Store, last: Option<string>)
    requires |store| >= 2
    requires last.None? || last.value == "" || last.value !in store
    ensures ResolveProfileForRun(store, last, None).Ok?
    ensures ResolveProfileForRun(store, last, None).value.1 == "default"
    ensures ResolveProfileForRun(store, last, None).value.2 <==> "default" !in store
  {
  }
}

=== FILE: text.dfy ===
/**
 * The handful of Python string operations the launcher relies on, over
 * `string` (a sequence of code points): `str.split`, `str.join`,
 * `str.partition`, `str.splitlines`, `str.strip`, `str.isdigit`, `int()` on a
 * digit string, and the code-point order used by `sorted`.
 */
module Text {

  /** `str.split` generalised to a set of separator characters: the pieces
      between separators, always at least one (`"".split("/") == [""]`). */
  function SplitWhere(s: string, isSep: char -> bool): (parts: seq<string>)
    ensures |parts| >= 1
    ensures forall i, j :: 0 <= i < |parts| && 0 <= j < |parts[i]| ==> !isSep(parts[i][j])
    decreases |s|
  {
    if |s| == 0 then [""]
    else
      var rest := SplitWhere(s[1..], isSep);
      if isSep(s[0]) then [""] + rest
      else [[s[0]] + rest[0]] + rest[1..]
  }

  /** `sep.join(parts)` for a one-character separator. */
  function Join(parts: seq<string>, sep: char): string
  {
    if |parts| == 0 then ""
    else if |parts| == 1 then parts[0]
    else parts[0] + [sep] + Join(parts[1..], sep)
  }

  /** The separator test for a one-character separator. */
  function IsChar(sep: char): char -> bool
  {
    c => c == sep
  }

  /** `s.split(sep)` for a one-character separator. */
  function Split(s: string, sep: char): (parts: seq<string>)
    ensures |parts| >= 1
    ensures forall i :: 0 <= i < |parts| ==> sep !in parts[i]
    ensures Join(parts, sep) == s
  {
    SplitJoinsBack(s, sep);
    SplitWhere(s, IsChar(sep))
  }

  lemma {:induction false} SplitJoinsBack(s: string, sep: char)
    ensures Join(SplitWhere(s, IsChar(sep)), sep) == s
    decreases |s|
  {
    var isSep := IsChar(sep);
    if |s| > 0 {
      var rest := SplitWhere(s[1..], isSep);
      SplitJoinsBack(s[1..], sep);
      if s[0] == sep {
        assert SplitWhere(s, isSep) == [""] + rest;
        assert ([""] + rest)[1..] == rest;
      } else {
        assert SplitWhere(s, isSep) == [[s[0]] + rest[0]] + rest[1..];
        if |rest| == 1 {
          assert s == [s[0]] + s[1..];
        } else {
          var parts := [[s[0]] + rest[0]] + rest[1..];
          assert parts[1..] == rest[1..];
          assert Join(rest, sep) == rest[0] + [sep] + Join(rest[1..], sep);
          assert s == [s[0]] + s[1..];
        }
      }
    }
  }

  /** A separator-free word followed by a separator splits off as one piece. */
  lemma {:induction false} SplitWhereWord(w: string, t: string, sep: char, isSep: char -> bool)
    requires isSep(sep)
    requires forall j :: 0 <= j < |w| ==> !isSep(w[j])
    ensures SplitWhere(w + [sep] + t, isSep) == [w] + SplitWhere(t, isSep)
    ensures SplitWhere(w, isSep) == [w]
    decreases |w|
  {
    if |w| > 0 {
      SplitWhereWord(w[1..], t, sep, isSep);
      assert (w + [sep] + t)[1..] == w[1..] + [sep] + t;
      assert w == [w[0]] + w[1..];
    } else {
      assert w + [sep] + t == [sep] + t;
    }
  }

  /** Splitting a joined list of separator-free words gives the words back. */
  lemma {:induction false} SplitWhereOfJoin(parts: seq<string>, sep: char, isSep: char -> bool)
    requires |parts| >= 1
    requires isSep(sep)
    requires forall i, j :: 0 <= i < |parts| && 0 <= j < |parts[i]| ==> !isSep(parts[i][j])
    ensures SplitWhere(Join(parts, sep), isSep) == parts
    decreases |parts|
  {
    if |parts| == 1 {
      SplitWhereWord(parts[0], "", sep, isSep);
    } else {
      SplitWhereOfJoin(parts[1..], sep, isSep);
      SplitWhereWord(parts[0], Join(parts[1..], sep), sep, isSep);
    }
  }

  /** Splitting a joined list of separator-free words gives the words back. */
  lemma SplitOfJoin(parts: seq<string>, sep: char)
    requires |parts| >= 1
    requires forall i :: 0 <= i < |parts| ==> sep !in parts[i]
    ensures Split(Join(parts, sep), sep) == parts
  {
    SplitWhereOfJoin(parts, sep, IsChar(sep));
  }

  /** A leading separator contributes one empty piece. */
  lemma SplitOfLeadingSeparator(t: string, sep: char)
    ensures Split([sep] + t, sep) == [""] + Split(t, sep)
  {
    SplitWhereWord("", t, sep, IsChar(sep));
    assert "" + [sep] + t == [sep] + t;
  }

  /** `s.partition(sep)`: the text before the first separator, whether one was
      found, and the text after it. */
  function Partition(s: string, sep: char): (r: (string, bool, string))
    ensures sep !in r.0
    ensures r.1 <==> sep in s
    ensures r.1 ==> s == r.0 + [sep] + r.2
    ensures !r.1 ==> r.0 == s && r.2 == ""
  {
    if |s| == 0 then ("", false, "")
    else if s[0] == sep then ("", true, s[1..])
    else
      var (before, found, after) := Partition(s[1..], sep);
      assert s == [s[0]] + s[1..];
      ([s[0]] + before, found, after)
  }

  /** The partition is the unique split at a separator-free head. */
  lemma {:induction false} PartitionAtFirst(head: string, tail: string, sep: char)
    requires sep !in head
    ensures Partition(head + [sep] + tail, sep) == (head, true, tail)
    decreases |head|
  {
    if |head| > 0 {
      PartitionAtFirst(head[1..], tail, sep);
      assert (head + [sep] + tail)[1..] == head[1..] + [sep] + tail;
      assert head == [head[0]] + head[1..];
    } else {
      assert head + [sep] + tail == [sep] + tail;
    }
  }

  predicate IsAsciiDigit(c: char)
  {
    '0' <= c <= '9'
  }

  /** `s.isdigit()` restricted to ASCII digits: non-empty and all digits. */
  predicate IsDigits(s: string)
  {
    |s| > 0 && forall i :: 0 <= i < |s| ==> IsAsciiDigit(s[i])
  }

  /** `int(s)` for a digit string (leading zeros allowed). */
  function DecimalValue(s: string): nat
    requires forall i :: 0 <= i < |s| ==> IsAsciiDigit(s[i])
  {
    if |s| == 0 then 0
    else
      assert IsAsciiDigit(s[|s| - 1]);
      10 * DecimalValue(s[..|s| - 1]) + ((s[|s| - 1] as int) - ('0' as int))
  }

  /** `str(n)` for a natural number: its decimal digits, no leading zero. */
  function DecimalText(n: nat): (r: string)
    ensures IsDigits(r)
    ensures |r| == 1 || r[0] != '0'
  {
    var digit := ['0' + (n % 10) as char];
    if n < 10 then digit else DecimalText(n / 10) + digit
  }

  /** Printing a number and reading it back gives the number. */
  lemma {:induction false} DecimalRoundTrip(n: nat)
    ensures DecimalValue(DecimalText(n)) == n
  {
    var s := DecimalText(n);
    if n >= 10 {
      DecimalRoundTrip(n / 10);
      assert s[..|s| - 1] == DecimalText(n / 10);
    }
  }

  /** The characters for which Python's `str.isspace()` holds. */
  predicate IsSpace(c: char)
  {
    || '\U{9}' <= c <= '\U{D}'
    || '\U{1C}' <= c <= '\U{20}'
    || c == '\U{85}' || c == '\U{A0}' || c == '\U{1680}'
    || '\U{2000}' <= c <= '\U{200A}'
    || c == '\U{2028}' || c == '\U{2029}' || c == '\U{202F}' || c == '\U{205F}' || c == '\U{3000}'
  }

  /** The characters at which `str.splitlines()` breaks a line. */
  predicate IsLineBreak(c: char)
  {
    || c == '\n' || c == '\r' || c == '\U{B}' || c == '\U{C}'
    || c == '\U{1C}' || c == '\U{1D}' || c == '\U{1E}'
    || c == '\U{85}' || c == '\U{2028}' || c == '\U{2029}'
  }

  function TrimLeft(s: string): (r: string)
    ensures |r| <= |s| && r == s[|s| - |r|..]
    ensures |r| > 0 ==> !IsSpace(r[0])
    ensures forall i :: 0 <= i < |s| - |r| ==> IsSpace(s[i])
  {
    if |s| > 0 && IsSpace(s[0]) then TrimLeft(s[1..]) else s
  }

  function TrimRight(s: string): (r: string)
    ensures |r| <= |s| && r == s[..|r|]
    ensures |r| > 0 ==> !IsSpace(r[|r| - 1])
    ensures forall i :: |r| <= i < |s| ==> IsSpace(s[i])
  {
    if |s| > 0 && IsSpace(s[|s| - 1]) then TrimRight(s[..|s| - 1]) else s
  }

  /** `s.strip()`: drop leading and trailing whitespace. */
  function Strip(s: string): (r: string)
    ensures |r| > 0 ==> !IsSpace(r[0]) && !IsSpace(r[|r| - 1])
  {
    TrimRight(TrimLeft(s))
  }

  /** A string with no whitespace at either end strips to itself. */
  lemma StripUnchanged(s: string)
    requires |s| > 0 ==> !IsSpace(s[0]) && !IsSpace(s[|s| - 1])
    ensures Strip(s) == s
  {
  }

  /** Python's `<=` on strings: code-point lexicographic order. */
  predicate Below(a: string, b: string)
  {
    |a| == 0 || (|b| > 0 && (a[0] < b[0] || (a[0] == b[0] && Below(a[1..], b[1..]))))
  }

  lemma BelowReflexive(a: string)
    ensures Below(a, a)
  {
  }

  lemma BelowAntisymmetric(a: string, b: string)
    requires Below(a, b) && Below(b, a)
    ensures a == b
  {
    if |a| > 0 {
      BelowAntisymmetric(a[1..], b[1..]);
      assert a == [a[0]] + a[1..] && b == [b[0]] + b[1..];
    }
  }

  lemma BelowTransitive(a: string, b: string, c: string)
    requires Below(a, b) && Below(b, c)
    ensures Below(a, c)
  {
    if |a| > 0 && a[0] == b[0] && b[0] == c[0] {
      BelowTransitive(a[1..], b[1..], c[1..]);
    }
  }

  lemma BelowTotal(a: string, b: string)
    ensures Below(a, b) || Below(b, a)
  {
    if |a| > 0 && |b| > 0 && a[0] == b[0] {
      BelowTotal(a[1..], b[1..]);
    }
  }

  predicate IsLeast(m: string, names: set<string>)
  {
    m in names && forall x :: x in names ==> Below(m, x)
  }

  lemma {:induction false} LeastExists(names: set<string>)
    requires names != {}
    ensures exists m :: IsLeast(m, names)
    decreases |names|
  {
    var x :| x in names;
    BelowReflexive(x);
    if names == {x} {
      assert IsLeast(x, names);
    } else {
      LeastExists(names - {x});
      var m :| IsLeast(m, names - {x});
      BelowTotal(m, x);
      if Below(m, x) {
        assert IsLeast(m, names);
      } else {
        forall y | y in names
          ensures Below(x, y)
        {
          if y != x {
            BelowTransitive(x, m, y);
          }
        }
        assert IsLeast(x, names);
      }
    }
  }

  lemma LeastUnique(names: set<string>)
    ensures forall a, b :: IsLeast(a, names) && IsLeast(b, names) ==> a == b
  {
    forall a, b | IsLeast(a, names) && IsLeast(b, names)
      ensures a == b
    {
      BelowAntisymmetric(a, b);
    }
  }

  predicate SortedStrictly(s: seq<string>)
  {
    forall i, j :: 0 <= i < j < |s| ==> Below(s[i], s[j]) && s[i] != s[j]
  }

  /** `sorted(names)`: the names of a set in ascending code-point order. */
  function SortedList(names: set<string>): (r: seq<string>)
    ensures |r| == |names|
    ensures forall x :: x in r <==> x in names
    ensures SortedStrictly(r)
    decreases |names|
  {
    if names == {} then []
    else
      LeastExists(names);
      LeastUnique(names);
      var m :| IsLeast(m, names);
      var rest := SortedList(names - {m});
      var r := [m] + rest;
      forall i, j | 0 <= i < j < |r|
        ensures Below(r[i], r[j]) && r[i] != r[j]
      {
        if i == 0 {
          assert r[j] == rest[j - 1] && r[j] in names - {m};
        } else {
          assert r[i] == rest[i - 1] && r[j] == rest[j - 1];
        }
      }
      r
  }
}

=== FILE: volumes.dfy ===
/**
 * Mount specifications `host[:container]` and the two path normalisations
 * behind them: the host side goes through the filesystem (home expansion,
 * `resolve`), the container side is purely lexical and never touches it.
 */
module Volumes {
  import opened Errors
  import opened Text
  import opened Paths

  /** `WORKSPACE_ROOT`: where relative container paths are anchored. */
  const WorkspaceRoot: Path := Path(Slash, ["home", "llm", "workspace"])

  lemma WorkspaceRootNormal()
    ensures Normal(WorkspaceRoot) && IsAbsolute(WorkspaceRoot)
    ensures forall i :: 0 <= i < |WorkspaceRoot.segments| ==> IsSegment(WorkspaceRoot.segments[i]) && WorkspaceRoot.segments[i] != ".."
  {
    var segs := WorkspaceRoot.segments;
    assert segs[0] == "home" && segs[1] == "llm" && segs[2] == "workspace";
    assert IsSegment(segs[0]) && IsSegment(segs[1]) && IsSegment(segs[2]);
  }

  /** What `Path.resolve(strict=False)` returns: rooted at a single slash,
      with no `.`, `..` or empty parts. */
  type Resolved = p: Path | p.root == Slash && Normal(p) witness Path(Slash, [])

  /** The filesystem as host-path handling sees it. */
  datatype Fs = Fs(
    expandUser: string -> string,  // os.path.expanduser on a "~" or "~user" first part
    resolve: Path -> Resolved,     // Path.resolve(strict=False)
    pathExists: Path -> bool)      // Path.exists()

  /** A mount: host path and container path. */
  datatype VolumeMount = VolumeMount(host: Path, container: Path) {

    /** `spec()`: the stored form `host:container`. */
    function Spec(): string
    {
      Render(host) + ":" + Render(container)
    }
  }

  /** The shape of every mount `ParseMountSpec` produces: a resolved host and
      an absolute, lexically normal container path. */
  predicate Placed(m: VolumeMount)
  {
    m.host.root == Slash && Normal(m.host) && IsAbsolute(m.container) && Normal(m.container)
  }

  /** `Path.expanduser()`: a relative path whose first part starts with `~`
      has that part replaced by the home directory it names. */
  function ExpandUser(p: Path, fs: Fs): (r: Result<Path>)
    requires WellFormed(p)
    ensures r.Ok? ==> WellFormed(r.value)
    ensures r.Err? ==> r.error == NoHomeDirectory
    ensures IsAbsolute(p) ==> r == Ok(p)
  {
    if p.root == Relative && |p.segments| > 0 && p.segments[0][0] == '~' then
      var homedir := fs.expandUser(p.segments[0]);
      if |homedir| > 0 && homedir[0] == '~' then Err(NoHomeDirectory)
      else
        var home := PurePath(homedir);
        Ok(Path(home.root, home.segments + p.segments[1..]))
    else Ok(p)
  }

  /** `normalize_host_path`: expand `~`, anchor a relative path at `cwd`,
      then resolve. */
  function NormalizeHostPath(path: string, cwd: Path, fs: Fs): (r: Result<Path>)
    ensures r.Ok? ==> r.value.root == Slash && Normal(r.value)
    ensures r.Err? ==> r.error == NoHomeDirectory
    ensures |path| > 0 && path[0] == '/' ==> r == Ok(fs.resolve(PurePath(path)))
  {
    var hostPath :- ExpandUser(PurePath(path), fs);
    var anchored := if IsAbsolute(hostPath) then hostPath else JoinPath(cwd, hostPath);
    Ok(fs.resolve(anchored))
  }

  /** A relative host without a `~` first part is joined onto `cwd` before
      it is resolved. */
  lemma HostRelativeJoinsCwd(path: string, cwd: Path, fs: Fs)
    requires !IsAbsolute(PurePath(path))
    requires |PurePath(path).segments| == 0 || PurePath(path).segments[0][0] != '~'
    ensures NormalizeHostPath(path, cwd, fs) == Ok(fs.resolve(Path(cwd.root, cwd.segments + PurePath(path).segments)))
  {
  }

  /** Lines 31-35 of the source: the path `normalize_container_path`
      normalises. */
  function ContainerTarget(path: Option<string>, host: Path): (r: Path)
    ensures WellFormed(r) && IsAbsolute(r)
  {
    WorkspaceRootNormal();
    if path.None? || path.value == "" then JoinPath(WorkspaceRoot, PurePath(Name(host)))
    else
      var container := PurePath(path.value);
      if IsAbsolute(container) then container else JoinPath(WorkspaceRoot, container)
  }

  /** `normalize_container_path`: the lexical normal form of the target.
      The source goes through strings, `Path(os.path.normpath(str(target)))`;
      `ContainerNormalizeThroughText` shows that detour changes nothing. */
  function NormalizeContainerPath(path: Option<string>, host: Path): (r: Path)
    ensures IsAbsolute(r) && Normal(r)
  {
    var target := ContainerTarget(path, host);
    NormPathNormal(target);
    NormPath(target)
  }

  /** The string round trip of the source gives the same path. */
  lemma ContainerNormalizeThroughText(path: Option<string>, host: Path)
    ensures NormalizeContainerPath(path, host) == PurePath(NormPathText(Render(ContainerTarget(path, host))))
  {
    var target := ContainerTarget(path, host);
    PurePathOfRender(target);
    NormPathNormal(target);
    PurePathOfRender(NormPath(target));
  }

  /** An empty or absent container part mounts at the workspace root
      under the host's last part. */
  lemma ContainerDefaultsToHostName(path: Option<string>, host: Path)
    requires path.None? || path == Some("")
    requires host.root == Slash && Normal(host)
    ensures |host.segments| > 0 ==>
      NormalizeContainerPath(path, host) == Path(Slash, WorkspaceRoot.segments + [Name(host)])
    ensures |host.segments| == 0 ==> NormalizeContainerPath(path, host) == WorkspaceRoot
  {
    var name := Name(host);
    if |host.segments| > 0 {
      SplitOfJoin([name], '/');
      assert Join([name], '/') == name;
      KeepSegments([name]);
      assert PurePath(name).segments == [name];
      WorkspaceRootNormal();
      NormSegmentsAppend(Slash, WorkspaceRoot.segments, [name]);
      NormPathOfNormal(WorkspaceRoot);
    } else {
      assert PurePath("") == Path(Relative, []) by {
        SplitOfJoin([""], '/');
      }
      assert WorkspaceRoot.segments + [] == WorkspaceRoot.segments;
      WorkspaceRootNormal();
      NormPathOfNormal(WorkspaceRoot);
    }
  }

  /** A relative container part is anchored under the workspace root; the
      root's own text is kept as written, never resolved. */
  lemma ContainerRelativeAnchored(part: string, host: Path)
    requires part != "" && part[0] != '/'
    ensures NormalizeContainerPath(Some(part), host)
      == NormPath(Path(Slash, WorkspaceRoot.segments + PurePath(part).segments))
    ensures (forall i :: 0 <= i < |PurePath(part).segments| ==> PurePath(part).segments[i] != "..") ==>
      NormalizeContainerPath(Some(part), host) == Path(Slash, WorkspaceRoot.segments + PurePath(part).segments)
  {
    var segs := PurePath(part).segments;
    if forall i :: 0 <= i < |segs| ==> segs[i] != ".." {
      WorkspaceRootNormal();
      NormSegmentsAppend(Slash, WorkspaceRoot.segments, segs);
      NormPathOfNormal(WorkspaceRoot);
    }
  }

  /** An absolute container part is only normalised, whatever the host. */
  lemma ContainerAbsoluteKept(part: string, host: Path, other: Path)
    requires part != "" && part[0] == '/'
    ensures NormalizeContainerPath(Some(part), host) == NormPath(PurePath(part))
    ensures NormalizeContainerPath(Some(part), host) == NormalizeContainerPath(Some(part), other)
  {
  }

  /** Normalising a normalised container path again changes nothing. */
  lemma ContainerNormalizeIdempotent(path: Option<string>, host: Path)
    ensures NormalizeContainerPath(Some(Render(NormalizeContainerPath(path, host))), host)
      == NormalizeContainerPath(path, host)
  {
    var c := NormalizeContainerPath(path, host);
    PurePathOfRender(c);
    RenderAbsolute(c);
    NormPathOfNormal(c);
  }

  /** `parse_mount_spec`: split at the first colon, normalise both sides,
      and check that the host exists unless missing hosts are allowed. */
  function ParseMountSpec(spec: string, cwd: Path, allowMissing: bool, fs: Fs): (r: Result<VolumeMount>)
    ensures (r == Err(EmptyHostPart)) <==> (spec == "" || spec[0] == ':')
    ensures r.Err? ==> r.error == EmptyHostPart || r.error == NoHomeDirectory || r.error.HostDoesNotExist?
    ensures allowMissing ==> !(r.Err? && r.error.HostDoesNotExist?)
    ensures r.Ok? ==> Placed(r.value)
    ensures r.Ok? && !allowMissing ==> fs.pathExists(r.value.host)
  {
    var (hostPart, _, containerPart) := Partition(spec, ':');
    if hostPart == "" then Err(EmptyHostPart)
    else
      var host :- NormalizeHostPath(hostPart, cwd, fs);
      if !allowMissing && !fs.pathExists(host) then Err(HostDoesNotExist(Render(host)))
      else
        var container := NormalizeContainerPath(if containerPart == "" then None else Some(containerPart), host);
        Ok(VolumeMount(host, container))
  }

  /** The host part is everything before the first colon and the container
      part everything after it, colons included. */
  lemma ParseSplitsAtFirstColon(hostPart: string, containerPart: string, cwd: Path, allowMissing: bool, fs: Fs)
    requires hostPart != "" && ':' !in hostPart
    ensures NormalizeHostPath(hostPart, cwd, fs).Err? ==>
      ParseMountSpec(hostPart + ":" + containerPart, cwd, allowMissing, fs) == Err(NormalizeHostPath(hostPart, cwd, fs).error)
    ensures NormalizeHostPath(hostPart, cwd, fs).Ok? ==>
      var host := NormalizeHostPath(hostPart, cwd, fs).value;
      allowMissing || fs.pathExists(host) ==>
        ParseMountSpec(hostPart + ":" + containerPart, cwd, allowMissing, fs)
          == Ok(VolumeMount(host, NormalizeContainerPath(Some(containerPart), host)))
    ensures NormalizeHostPath(hostPart, cwd, fs).Ok? ==>
      var host := NormalizeHostPath(hostPart, cwd, fs).value;
      !allowMissing && !fs.pathExists(host) ==>
        ParseMountSpec(hostPart + ":" + containerPart, cwd, allowMissing, fs) == Err(HostDoesNotExist(Render(host)))
  {
    PartitionAtFirst(hostPart, containerPart, ':');
  }

  /** A spec without a colon is all host: it mounts at the default
      container path, `/home/llm/workspace/<host name>`. */
  lemma ParseWithoutColon(hostPart: string, cwd: Path, allowMissing: bool, fs: Fs)
    requires hostPart != "" && ':' !in hostPart
    ensures NormalizeHostPath(hostPart, cwd, fs).Err? ==>
      ParseMountSpec(hostPart, cwd, allowMissing, fs) == Err(NormalizeHostPath(hostPart, cwd, fs).error)
    ensures NormalizeHostPath(hostPart, cwd, fs).Ok? ==>
      var host := NormalizeHostPath(hostPart, cwd, fs).value;
      allowMissing || fs.pathExists(host) ==>
        ParseMountSpec(hostPart, cwd, allowMissing, fs) == Ok(VolumeMount(host, NormalizeContainerPath(None, host)))
    ensures NormalizeHostPath(hostPart, cwd, fs).Ok? ==>
      var host := NormalizeHostPath(hostPart, cwd, fs).value;
      !allowMissing && !fs.pathExists(host) ==>
        ParseMountSpec(hostPart, cwd, allowMissing, fs) == Err(HostDoesNotExist(Render(host)))
  {
  }

  /** An absolute host with missing hosts allowed always parses. */
  lemma ParseAbsoluteNeverFails(spec: string, cwd: Path, fs: Fs)
    requires |spec| > 0 && spec[0] == '/'
    ensures ParseMountSpec(spec, cwd, true, fs).Ok?
  {
  }

  /** Re-parsing a stored spec with cwd `/` and missing hosts allowed gives
      the same container back. */
  lemma SpecRoundTripContainer(m: VolumeMount, fs: Fs)
    requires Placed(m)
    requires ':' !in Render(m.host)
    ensures ParseMountSpec(m.Spec(), Path(Slash, []), true, fs).Ok?
    ensures ParseMountSpec(m.Spec(), Path(Slash, []), true, fs).value.container == m.container
  {
    var h := Render(m.host);
    var c := Render(m.container);
    PartitionAtFirst(h, c, ':');
    assert m.Spec() == h + [':'] + c;
    RenderAbsolute(m.host);
    RenderAbsolute(m.container);
    PurePathOfRender(m.container);
    NormPathOfNormal(m.container);
  }

  /** ... and the same host too when `resolve` leaves its own output alone. */
  lemma SpecRoundTrip(m: VolumeMount, fs: Fs)
    requires Placed(m)
    requires ':' !in Render(m.host)
    requires fs.resolve(m.host) == m.host
    ensures ParseMountSpec(m.Spec(), Path(Slash, []), true, fs) == Ok(m)
  {
    SpecRoundTripContainer(m, fs);
    PurePathOfRender(m.host);
    RenderAbsolute(m.host);
    var h := Render(m.host);
    PartitionAtFirst(h, Render(m.container), ':');
    assert m.Spec() == h + [':'] + Render(m.container);
  }
}
